=== FILE: README.md ===
# FormatToAs: the `format:` to `as:` rewrite of rails5_xhr_update

`Rails5XHRUpdate::FormatToAs` is a `Parser::TreeRewriter` that upgrades Rails
controller and integration tests to the Rails 5 request syntax. For every call of
a request helper (`get`, `post`, `put`, `patch`, `delete`, `head`) it reads the
keyword hash of the call and turns a truthy `format:` value into `as:`. The
`format:` may sit at the top level or inside `params: { ... }`. It then rebuilds
the call with a single hash whose keys are in ascending order. A `params` hash
is rebuilt the same way.

Only the first entry of the hash is looked at for an existing `as`: when one of
its children starts with the symbol `:as`, the call is left as written. An
`as:` in a later entry does not stop the rewrite, and a `format:` overwrites
it. The `params` value is read child by child whatever kind of node it is. An
empty array or a `nil` literal gives `params: {}`, and an array of two-element
arrays is read as pairs. A `params` value that is an atom, or that has an atom
as a child, leaves the call as written; `params: @filters` is the node
`(ivar :@filters)`, whose one child is a symbol, so it is declined by the
second test. An entry with other than two children, at the top level or inside
`params`, raises: the call is logged and left as written.

The model has six modules:

- `Order` (order.dfy): the order of Ruby symbols (`Below`, code-point
  lexicographic), and an insertion sort with a permutation proof.
- `Hashes` (hashes.dfy): a Ruby `Hash` as an insertion-ordered association
  list. It covers lookup, `[]=` (last write wins, the key keeps its place),
  `delete`, building a hash pair by pair, and the sorted listing of a hash.
- `Ast` (ast.dfy): the parser's tagged tree. A child is a node, a symbol, any
  other atom, or Ruby `nil`.
- `FormatToAs` (format_to_as.dfy): `on_send`, `extract_and_validate_arguments`
  and `add_xhr_node`. Ruby exceptions are the `Invalid` outcome; the `rescue` of
  `on_send` turns them into the `Log` action, which leaves the call as written.
- `Properties` (properties.dfy): facts that relate several calls. Rewriting is
  idempotent; once past the skip check, normalisation and the rebuilt hash
  depend only on what the assigned mapping looks up; and the skip and error
  paths behave as described. The skip check itself looks at the first entry
  only, so the order of the entries can decide whether a call is rewritten.
- `Scenarios` (scenarios.dfy): the examples of test/test_format_to_as.rb. Each
  is proved for any values in the positions the test writes, and then for the
  test's own values. A few declined and re-sorted calls are covered too.

## Model

| member | source | states |
|---|---|---|
| FormatToAs.OnSend | lib/rails5_xhr_update/format_to_as.rb:22-33 | A call of any helper outside the six verbs is kept. A verb call is replaced exactly when extraction succeeds, and logged exactly when extraction raises. The replacement keeps a nil receiver, the verb and the path, and carries one hash node whose entries read back as the sorted layout of the extracted mapping. |
| FormatToAs.Extract | lib/rails5_xhr_update/format_to_as.rb:66-69 | A call with fewer than three children raises (the argument slice is nil). With no argument after the path, a nil first argument, or a first argument node that is not a hash, it is not applicable; an atom there raises. A hash argument gives exactly what extracting that hash gives. Success implies the argument is a hash node and the mapping is normalised. |
| FormatToAs.ExtractHash | lib/rails5_xhr_update/format_to_as.rb:71-94 | When the skip check declines or raises, extraction does the same with the same fault. When it passes, a top-level entry that raises makes extraction raise with that fault, and otherwise the result is the normalisation of the hash assigned entry by entry. Any mapping produced is normalised. |
| FormatToAs.SkipCheck | lib/rails5_xhr_update/format_to_as.rb:71 | Raises exactly when the first entry is an atom other than nil, or a node with a child that is not a node. Declines exactly when the first entry can be inspected and one of its children starts with the symbol `as`. |
| FormatToAs.ReadEntry | lib/rails5_xhr_update/format_to_as.rb:74-75 | An entry reads as a pair exactly when it is a two-child node with a symbol key. The pair is that key and the second child. A node with other than two children raises `Unexpected` with that node. An atom declines inside `params` (line 85); at the top level an atom raises. |
| FormatToAs.ReadEntries | lib/rails5_xhr_update/format_to_as.rb:73-76 | The list reads exactly when every entry is a pair, and the pairs come out in order. At the top level the outcome is never "not applicable". |
| FormatToAs.FirstFailureDecides | lib/rails5_xhr_update/format_to_as.rb:84-87 | The first entry that is not a pair decides whether reading the list declines or raises, and with which fault. |
| FormatToAs.TruthyValue | lib/rails5_xhr_update/format_to_as.rb:77 | A value is found exactly when the key is present with a truthy value. When none is found, the key is absent or holds nil. |
| FormatToAs.ReadParams | lib/rails5_xhr_update/format_to_as.rb:83-88 | A `params` value that is not a node is not applicable. Otherwise it reads exactly when every child is a pair; it declines exactly when reading the children declines (the first child that is not a pair is an atom), and raises with the same fault when reading them raises (that child has other than two children). The resulting hash has exactly the keys written, and each holds the value of the last child writing it. |
| FormatToAs.EntriesAssigned | lib/rails5_xhr_update/format_to_as.rb:84-88 | Assigning the pairs read from a list of entries gives a hash with exactly the keys written, each holding the value of the last entry writing it. |
| FormatToAs.Normalize | lib/rails5_xhr_update/format_to_as.rb:77-93 | The result is normalised: `format` is never a key, and only `params` may hold a nested hash. Keys other than format/as/params keep their values. `as` gets the params `format`, else the top-level `format`, else the `as` already there. With no truthy `params` the result always exists. With one, the result declines or raises exactly as reading `params` does, and otherwise `params` holds the read hash without `format`. |
| FormatToAs.NestedHash | lib/rails5_xhr_update/format_to_as.rb:44-55 | The rebuilt params hash reads back, both as a `params` value and as a top-level hash, as the params mapping listed in ascending key order. |
| FormatToAs.Rendered | lib/rails5_xhr_update/format_to_as.rb:40-41 | A nil value never reaches the rebuilt hash. |
| FormatToAs.RenderEntries | lib/rails5_xhr_update/format_to_as.rb:39-61 | Rendering introduces no new keys. It keeps ascending keys ascending. On a hash with distinct keys, each lookup of the result is the rendered lookup of the input. |
| FormatToAs.Layout | lib/rails5_xhr_update/format_to_as.rb:39-63 | The entries of the rebuilt hash have strictly ascending keys. Each key holds the rendered value of the mapping: absent when the mapping has nil, the value otherwise. |
| FormatToAs.BuildHash | lib/rails5_xhr_update/format_to_as.rb:37-64 | The one hash node built from the mapping reads back as exactly its layout. |
| FormatToAs.Rebuilt | lib/rails5_xhr_update/format_to_as.rb:28 | The replacement call keeps the node type, the helper and the path, drops the receiver, and has one hash argument whose entries read back as the sorted layout of the mapping. |
| FormatToAs.ReadPairNodes | lib/rails5_xhr_update/format_to_as.rb:73-76 | Pair nodes built from key/value pairs read back as those pairs. |
| Hashes.Lookup | lib/rails5_xhr_update/format_to_as.rb:80 | `h[k]` finds a value exactly when `k` is a key. |
| Hashes.LookupEntry | lib/rails5_xhr_update/format_to_as.rb:40 | In a hash with distinct keys, looking up the key of any entry gives that entry's value. |
| Hashes.Put | lib/rails5_xhr_update/format_to_as.rb:78 | After `h[k] = v`, `k` maps to `v` and every other key is unchanged. A new key is appended; an existing key keeps its place. Keys stay distinct. |
| Hashes.Remove | lib/rails5_xhr_update/format_to_as.rb:77 | After `h.delete(k)`, `k` is absent and every other key is unchanged. The keys are the old keys without `k`. Deleting an absent key changes nothing. Keys stay distinct. |
| Hashes.FromPairs | lib/rails5_xhr_update/format_to_as.rb:72-76 | The hash assigned pair by pair has distinct keys, and its keys are exactly the keys written. |
| Hashes.FromPairsLastWins | lib/rails5_xhr_update/format_to_as.rb:75 | A key maps to the value of the last pair that writes it. |
| Hashes.LastWinsEverywhere | lib/rails5_xhr_update/format_to_as.rb:75 | Every pair that no later pair overwrites is what its key looks up after assigning all the pairs. |
| Hashes.FromPairsDistinct | lib/rails5_xhr_update/format_to_as.rb:87 | Pairs with distinct keys give back the same list, in the same order. |
| Hashes.SortedView | lib/rails5_xhr_update/format_to_as.rb:39-40 | Visiting a hash by sorted keys lists its entries with strictly ascending keys and the same lookups. |
| Hashes.IncreasingLookupUnique | lib/rails5_xhr_update/format_to_as.rb:46 | Two hashes listed in ascending key order that look up alike are the same list, so the sorted listing is unique. |
| Hashes.SortedViewIdempotent | lib/rails5_xhr_update/format_to_as.rb:46 | Listing an already sorted listing in key order changes nothing. |
| Order.Sort | lib/rails5_xhr_update/format_to_as.rb:39 | `keys.sort` returns the keys in strictly ascending order, as a permutation of the input. |
| Order.SortMembers | lib/rails5_xhr_update/format_to_as.rb:39 | Sorting keeps exactly the same keys. |
| Order.IncreasingUnique | lib/rails5_xhr_update/format_to_as.rb:39 | Two strictly ascending key lists with the same members are equal. |
| Order.SortFixesIncreasing | lib/rails5_xhr_update/format_to_as.rb:46 | Sorting keys that are already ascending returns them unchanged. |
| Order.BelowTotal | lib/rails5_xhr_update/format_to_as.rb:39 | Any two different symbols are ordered one way or the other. |
| Order.BelowTransitive | lib/rails5_xhr_update/format_to_as.rb:39 | The symbol order is transitive. |
| Order.BelowIrreflexive | lib/rails5_xhr_update/format_to_as.rb:39 | No symbol sorts before itself. |
| Properties.LeadingAsIsKept | lib/rails5_xhr_update/format_to_as.rb:70-71 | A keyword hash whose first entry can be inspected and mentions `:as` makes the call not applicable, and the call is left as written. |
| Properties.MalformedEntryIsLogged | lib/rails5_xhr_update/format_to_as.rb:74 | A top-level entry with other than two children makes a verb call that passed the skip check log and stay as written. When it is the first bad entry, it is the one reported. |
| Properties.ParamsAtomIsSkipped | lib/rails5_xhr_update/format_to_as.rb:84-85 | A `params` child that is not a node makes the call not applicable, provided every child before it is a pair. |
| Properties.MalformedParamsEntryRaises | lib/rails5_xhr_update/format_to_as.rb:84-86 | A `params` child that is a node with other than two children, after children that are all pairs, makes normalisation raise `Unexpected` with that node, so extraction raises and the call is logged. |
| Properties.NestedRoundTrip | lib/rails5_xhr_update/format_to_as.rb:44-55 | The rebuilt params hash reads back as the sorted params mapping. That mapping has no `format` to delete and rebuilds to the same node. |
| Properties.RenormalizeLayout | lib/rails5_xhr_update/format_to_as.rb:37-93 | The entries of a rebuilt hash normalise again, and every rendered lookup of the result is what the rebuilt hash shows. |
| Properties.RewriteIsIdempotent | lib/rails5_xhr_update/format_to_as.rb:22-96 | Running the rewrite on its own output changes nothing. |
| Properties.RebuiltCallIsFixed | lib/rails5_xhr_update/format_to_as.rb:26-28 | A call rebuilt from a normalised mapping is left unchanged by a second rewrite. |
| Properties.RebuiltHashIsFixed | lib/rails5_xhr_update/format_to_as.rb:37-94 | A rebuilt hash that passes the skip check extracts to a mapping that builds the same hash again. |
| Properties.BuildIgnoresEntryOrder | lib/rails5_xhr_update/format_to_as.rb:37-64 | Two mappings that look up alike build the same hash. |
| Properties.RewriteIgnoresEntryOrder | lib/rails5_xhr_update/format_to_as.rb:72-94 | Once past the skip check: two assigned mappings that look up alike both normalise or both do not, and when they do they build the same hash. |
| Scenarios.FormatBecomesAs | test/test_format_to_as.rb:7-14 | `verb :path, format: f` becomes `verb :path, as: f` for any verb and any node `f` that does not start with `:as`. |
| Scenarios.ExistingAsIsKept | test/test_format_to_as.rb:16-23 | `verb :path, as: a` is left as written. |
| Scenarios.ParamsFormatBecomesAs | test/test_format_to_as.rb:25-32 | `params: { k: v, format: f }` becomes `as: f, params: { k: v }` for any truthy `f`. |
| Scenarios.TopFormatBesideParams | test/test_format_to_as.rb:35-45 | `params: { k: v }, format: f` becomes `as: f, params: { k: v }` for any truthy `f`. |
| Scenarios.TestSuiteExamples | test/test_format_to_as.rb:7-45 | The four test cases give exactly the expected calls. |
| Scenarios.OtherHelperIsKept | lib/rails5_xhr_update/format_to_as.rb:23 | A `visit` call is kept even though it has `format:`. |
| Scenarios.DoubleSplatIsLogged | lib/rails5_xhr_update/format_to_as.rb:20 | `post :path, **opts` raises on its one-child entry: logged and left as written. |
| Scenarios.InstanceVariableParamsAreSkipped | lib/rails5_xhr_update/format_to_as.rb:82-85 | `params: @ivar, format: f` is left as written; the top-level `format` is not promoted either. |
| Scenarios.PlainCallIsSorted | lib/rails5_xhr_update/format_to_as.rb:39-63 | A call whose hash has neither `format` nor `params` (and no nil value) is rebuilt with the same entries in ascending key order. |
| Scenarios.SkipCheckSeesFirstEntryOnly | lib/rails5_xhr_update/format_to_as.rb:71 | The order of the entries matters to the skip check: `as: a, format: f` is left as written, while `format: f, as: a` becomes `as: f`. |
| Scenarios.KeysAreSorted | lib/rails5_xhr_update/format_to_as.rb:39 | `sort: s, limit: l` is rebuilt as `limit: l, sort: s`. |

## Left out

- Parsing source text and printing the rebuilt call (`Rails5XHRUpdate.ast_to_string`, `ast_pair` and the `replace` on the source buffer) are not modelled. The model works on trees: `Apply` gives the tree the printer would print.
- Source locations (`node.loc.expression`) and the `puts` of the rescue clause are not modelled. The logged fault is kept as the `Log` action.
- Tree traversal: `on_send` does not call `super`, and neither does the early return for other helpers, so the arguments of any call are never visited (`expect(get :x, format: :json)` is not rewritten). The model treats one call at a time and does not visit nested calls, since the rewriter does not either.
- Ruby exceptions are reduced to three faults: a missing method on nil or an atom, the explicit `raise`, and a key that is not a symbol. Their messages are not modelled.
- FormatToAs.ReadEntry: a hash key that is not a symbol (a string key `"a" => 1`, say) is stored by Ruby under that non-symbol key. The model raises `UnsupportedKey` for it instead, so such calls are logged rather than rebuilt.
- The `kwargs` node type of newer parser versions is not modelled. Only the `hash` node type is read, as the code does.
- The nil test at line 49 looks at the hash rather than the entry's value, so a nested nil value is kept. The model keeps it as written. The parser gives `nil` as a `(nil)` node, which is truthy, so neither nil test can drop a parsed value. For that reason this is not reported as a defect.
- The doc comment at lines 16-18 shows `params:` before `as:`. The code sorts the keys, so `as:` comes first, as the tests expect. The model follows the code.
- The helper list is the one the code names (`get`, `post`, `put`, `patch`, `delete`, `head`). Other variants of the tool use a different list.
- Order.Below compares symbols by their characters' code points. Ruby compares symbols byte-wise on their UTF-8 encoding, and the two orders agree on every symbol.

=== FILE: ast.dfy ===
/** The slice of the Ruby syntax tree that the rewriter reads and builds: a
    node is a type tag with an ordered list of children, and a child is
    either a node or an atom (a symbol, another literal value, or nil).
    Source locations are not modelled. */
module Ast {

  datatype Kind = Send | Hash | Pair | Symbol | Other(tag: string)

  datatype Node = Node(kind: Kind, children: seq<Child>)

  /** `Lit` stands for every atom that is not a symbol or nil (an Integer or
      a String, say), by its printed text. */
  datatype Child = N(node: Node) | Sym(name: string) | Lit(text: string) | NilC

  /** `(sym :name)` */
  function SymNode(name: string): Node
  {
    Node(Symbol, [Sym(name)])
  }

  /** The pair `name: value` that `Rails5XHRUpdate.ast_pair` builds:
      `(pair (sym :name) value)`. */
  function PairNode(name: string, value: Child): Node
  {
    Node(Pair, [N(SymNode(name)), value])
  }

  /** Ruby truthiness; the tree holds no `false` atom, so only nil is falsy. */
  predicate Truthy(c: Child)
  {
    !c.NilC?
  }
}

=== FILE: format_to_as.dfy ===
/** `Rails5XHRUpdate::FormatToAs` (lib/rails5_xhr_update/format_to_as.rb): for
    a call of a test helper such as `get :images_path, format: :json`, read the
    keyword hash, turn `format:` (at the top or inside `params:`) into `as:`,
    and rebuild the call with the keys in ascending order.

    Ruby exceptions are the `Invalid` outcome; the per-call `rescue` turns
    them into `Log`, which leaves the call as written. */
module FormatToAs {
  import opened Order
  import opened Hashes
  import opened Ast

  /** The helpers whose calls are rewritten. */
  const Verbs: set<string> := {"get", "post", "put", "patch", "delete", "head"}

  /** Why the handling of one call raised. */
  datatype Fault =
    | NoMethod(name: string)    // a NoMethodError: a method called on nil or on an atom
    | Unexpected(entry: Node)   // the `raise` on an entry that has not exactly two children
    | UnsupportedKey(key: Child) // a hash key that is not a symbol (not modelled further)

  datatype Outcome<+T> = NotApplicable | Invalid(fault: Fault) | Ok(value: T)

  /** A hash whose keys are distinct (every Ruby Hash). */
  type Hash<V> = a: Assoc<V> | Wf(a) witness []

  /** A value of the extracted mapping: a node (or atom) as written, or the
      `params` hash read into its own mapping. */
  datatype Value = Leaf(child: Child) | Nested(entries: Hash<Child>)

  /** What `on_send` does with one call. */
  datatype Action = Keep | Log(fault: Fault) | Replace(call: Node)

  predicate IsVerbCall(call: Node)
  {
    |call.children| >= 2 && call.children[1].Sym? && call.children[1].name in Verbs
  }

  // ---------------------------------------------------------------------
  // Reading hash entries: the key is the first child of the pair's first
  // child, the value is the pair's second child
  // ---------------------------------------------------------------------

  /** A pair node whose key node holds a symbol. */
  predicate IsEntry(c: Child)
  {
    && c.N?
    && |c.node.children| == 2
    && c.node.children[0].N?
    && |c.node.children[0].node.children| > 0
    && c.node.children[0].node.children[0].Sym?
  }

  function EntryPair(c: Child): (string, Child)
    requires IsEntry(c)
  {
    (c.node.children[0].node.children[0].name, c.node.children[1])
  }

  /** One entry of a hash. At the top level an atom raises (it has no
      `children`); inside `params` it makes the call not applicable. */
  function ReadEntry(c: Child, nested: bool): (r: Outcome<(string, Child)>)
    ensures r.Ok? <==> IsEntry(c)
    ensures r.Ok? ==> r.value == EntryPair(c)
    ensures r.NotApplicable? <==> nested && !c.N?
    ensures c.N? && |c.node.children| != 2 ==> r == Invalid(Unexpected(c.node))
  {
    match c
    case N(entry) =>
      if |entry.children| != 2 then Invalid(Unexpected(entry))
      else (
        match entry.children[0]
        case N(key) =>
          if |key.children| > 0 && key.children[0].Sym? then Ok((key.children[0].name, entry.children[1]))
          else Invalid(UnsupportedKey(if |key.children| > 0 then key.children[0] else NilC))
        case _ => Invalid(NoMethod("children"))
      )
    case _ => if nested then NotApplicable else Invalid(NoMethod("children"))
  }

  /** The entries of a hash, in order; the first entry that fails decides. */
  function ReadEntries(cs: seq<Child>, nested: bool): (r: Outcome<seq<(string, Child)>>)
    ensures r.Ok? <==> forall i :: 0 <= i < |cs| ==> IsEntry(cs[i])
    ensures r.Ok? ==> |r.value| == |cs| && forall i :: 0 <= i < |cs| ==> r.value[i] == EntryPair(cs[i])
    ensures !nested ==> !r.NotApplicable?
  {
    if cs == [] then Ok([])
    else
      match ReadEntry(cs[0], nested)
      case NotApplicable => NotApplicable
      case Invalid(f) => Invalid(f)
      case Ok(p) =>
        match ReadEntries(cs[1..], nested)
        case NotApplicable => NotApplicable
        case Invalid(f) => Invalid(f)
        case Ok(ps) =>
          assert forall i :: 0 < i < |cs| ==> cs[i] == cs[1..][i - 1];
          Ok([p] + ps)
  }

  /** The first entry that is not a key/value pair decides the outcome of
      reading the whole list. */
  lemma {:induction false} FirstFailureDecides(cs: seq<Child>, nested: bool, i: int)
    requires 0 <= i < |cs|
    requires forall j :: 0 <= j < i ==> IsEntry(cs[j])
    requires !IsEntry(cs[i])
    ensures ReadEntries(cs, nested).NotApplicable? <==> ReadEntry(cs[i], nested).NotApplicable?
    ensures ReadEntry(cs[i], nested).Invalid? ==> ReadEntries(cs, nested) == Invalid(ReadEntry(cs[i], nested).fault)
    decreases i
  {
    if i > 0 {
      assert IsEntry(cs[0]);
      assert forall j :: 0 <= j < |cs| - 1 ==> cs[1..][j] == cs[j + 1];
      FirstFailureDecides(cs[1..], nested, i - 1);
    }
  }

  // ---------------------------------------------------------------------
  // The skip check: does any child of the first entry start
  // with the symbol `as`?
  // ---------------------------------------------------------------------

  predicate StartsWithAs(c: Child)
  {
    c.N? && |c.node.children| > 0 && c.node.children[0] == Sym("as")
  }

  /** `to_a` and `select` can look at the hash's first entry without raising. */
  predicate FirstEntryInspectable(hash: Node)
  {
    || |hash.children| == 0
    || hash.children[0].NilC?
    || (hash.children[0].N? && forall i :: 0 <= i < |hash.children[0].node.children| ==> hash.children[0].node.children[i].N?)
  }

  /** Some child of the first entry (its key node or its value node) starts with `:as`. */
  predicate FirstEntryMentionsAs(hash: Node)
  {
    && |hash.children| > 0
    && hash.children[0].N?
    && exists i :: 0 <= i < |hash.children[0].node.children| && StartsWithAs(hash.children[0].node.children[i])
  }

  function SkipCheck(hash: Node): (r: Outcome<()>)
    ensures r.Invalid? <==> !FirstEntryInspectable(hash)
    ensures r.NotApplicable? <==> FirstEntryInspectable(hash) && FirstEntryMentionsAs(hash)
  {
    if |hash.children| == 0 then Ok(())
    else
      match hash.children[0]
      case NilC => Ok(())
      case N(first) =>
        if exists i :: 0 <= i < |first.children| && !first.children[i].N? then Invalid(NoMethod("children"))
        else if exists i :: 0 <= i < |first.children| && StartsWithAs(first.children[i]) then NotApplicable
        else Ok(())
      case _ => Invalid(NoMethod("to_a"))
  }

  // ---------------------------------------------------------------------
  // Normalisation: `format` becomes `as`, `params` is read as a nested hash
  // ---------------------------------------------------------------------

  /** The value under `k` when it is truthy, as `if x = h[k]` tests it. */
  function TruthyValue(a: Assoc<Child>, k: string): (r: Option<Child>)
    ensures r.Some? ==> Lookup(a, k) == r && Truthy(r.value)
    ensures r.None? ==> Lookup(a, k).None? || Lookup(a, k) == Some(NilC)
  {
    match Lookup(a, k)
    case Some(c) => if Truthy(c) then Some(c) else None
    case None => None
  }

  function LeafOf(o: Option<Child>): Option<Value>
  {
    match o
    case Some(c) => Some(Leaf(c))
    case None => None
  }

  /** Every value of a mapping of nodes, as it stands. */
  function Lift(a: Assoc<Child>): (r: Assoc<Value>)
    ensures Keys(r) == Keys(a)
    ensures forall k :: Lookup(r, k) == LeafOf(Lookup(a, k))
  {
    if a == [] then []
    else
      var rest := Lift(a[1..]);
      KeysCons(a);
      KeysCons([(a[0].0, Leaf(a[0].1))] + rest);
      assert ([(a[0].0, Leaf(a[0].1))] + rest)[1..] == rest;
      [(a[0].0, Leaf(a[0].1))] + rest
  }

  /** The `params` value read as a hash. A value that is not a node, or whose
      first child that is not a pair is an atom, is not applicable; when that
      child is a node with other than two children, reading raises. */
  function ReadParams(value: Child): (r: Outcome<Hash<Child>>)
    ensures !value.N? ==> r == NotApplicable
    ensures value.N? ==> (r.Ok? <==> forall i :: 0 <= i < |value.node.children| ==> IsEntry(value.node.children[i]))
    ensures value.N? ==> (r.NotApplicable? <==> ReadEntries(value.node.children, true).NotApplicable?)
    ensures value.N? && ReadEntries(value.node.children, true).Invalid? ==>
      r == Invalid(ReadEntries(value.node.children, true).fault)
    ensures r.Ok? ==> Assigned(value.node.children, r.value)
  {
    match value
    case N(p) =>
      (
        match ReadEntries(p.children, true)
        case Ok(ps) =>
          EntriesAssigned(p.children, ps);
          Ok(FromPairs(ps))
        case NotApplicable => NotApplicable
        case Invalid(f) => Invalid(f)
      )
    case _ => NotApplicable
  }

  /** `h` is what assigning the entries `cs` one after another gives: exactly
      the keys written, each holding the value of the last entry writing it. */
  ghost predicate Assigned(cs: seq<Child>, h: Assoc<Child>)
  {
    && (forall i :: 0 <= i < |cs| ==> IsEntry(cs[i]))
    && (forall k :: k in Keys(h) <==> exists i :: 0 <= i < |cs| && IsEntry(cs[i]) && EntryPair(cs[i]).0 == k)
    && (forall i :: 0 <= i < |cs| && IsEntry(cs[i]) && WrittenLast(cs, i) ==>
          Lookup(h, EntryPair(cs[i]).0) == Some(EntryPair(cs[i]).1))
  }

  /** No later entry writes the key of entry `i` again. */
  predicate WrittenLast(cs: seq<Child>, i: int)
    requires 0 <= i < |cs| && IsEntry(cs[i])
  {
    forall j :: i < j < |cs| && IsEntry(cs[j]) ==> EntryPair(cs[j]).0 != EntryPair(cs[i]).0
  }

  lemma EntriesAssigned(cs: seq<Child>, ps: seq<(string, Child)>)
    requires forall i :: 0 <= i < |cs| ==> IsEntry(cs[i])
    requires |ps| == |cs| && forall i :: 0 <= i < |cs| ==> ps[i] == EntryPair(cs[i])
    ensures Assigned(cs, FromPairs(ps))
  {
    KeysIn(ps);
    LastWinsEverywhere(ps);
  }

  /** The truthy `format` inside a readable, truthy `params` hash. */
  function ParamsFormat(top: Assoc<Child>): Option<Child>
  {
    match TruthyValue(top, "params")
    case Some(p) => (
      match ReadParams(p)
      case Ok(inner) => TruthyValue(inner, "format")
      case _ => None
    )
    case None => None
  }

  /** The value `as` ends up with: a truthy `format` inside `params` wins
      over a truthy top-level `format`, which wins over an `as` already there. */
  function PromotedAs(top: Assoc<Child>): Option<Value>
  {
    match ParamsFormat(top)
    case Some(f) => Some(Leaf(f))
    case None => (
      match TruthyValue(top, "format")
      case Some(f) => Some(Leaf(f))
      case None => LeafOf(Lookup(top, "as"))
    )
  }

  /** The entry a normalised mapping may hold under `k`: only `params` may
      be a nested hash, and no hash holds `format`. */
  predicate NormalEntry(k: string, v: Value)
  {
    if k == "params" then v == Leaf(NilC) || (v.Nested? && "format" !in Keys(v.entries))
    else v.Leaf?
  }

  predicate Normalized(m: Assoc<Value>)
  {
    && NormalBesidesParams(m)
    && ("params" in Keys(m) ==> NormalEntry("params", Get(m, "params")))
  }

  predicate NormalBesidesParams(m: Assoc<Value>)
  {
    && Wf(m)
    && "format" !in Keys(m)
    && forall k :: k in Keys(m) && k != "params" ==> Get(m, k).Leaf?
  }

  /** Promoting `format` to `as` and reading `params`, applied to the
      top-level mapping. */
  function Normalize(top: Hash<Child>): (r: Outcome<Assoc<Value>>)
    ensures r.Ok? ==> Normalized(r.value)
    ensures r.Ok? ==> forall k :: k != "format" && k != "as" && k != "params" ==> Lookup(r.value, k) == LeafOf(Lookup(top, k))
    ensures r.Ok? ==> Lookup(r.value, "as") == PromotedAs(top)
    ensures TruthyValue(top, "params").None? ==> r.Ok? && Lookup(r.value, "params") == LeafOf(Lookup(top, "params"))
    ensures TruthyValue(top, "params").Some? ==>
      var inner := ReadParams(TruthyValue(top, "params").value);
      && (r.NotApplicable? <==> inner.NotApplicable?)
      && (inner.Invalid? ==> r == Invalid(inner.fault))
      && (inner.Ok? ==> r.Ok? && Lookup(r.value, "params") == Some(Nested(Remove(inner.value, "format"))))
  {
    var rest := Remove(top, "format");
    var promoted := (
      match TruthyValue(top, "format")
      case Some(f) => Put(rest, "as", f)
      case None => rest);
    var result := Lift(promoted);
    PromotedFacts(top, rest, promoted, result);
    match TruthyValue(promoted, "params")
    case None =>
      PromotedAsFlat(top, result);
      Ok(result)
    case Some(p) =>
      match ReadParams(p)
      case NotApplicable => NotApplicable
      case Invalid(f) => Invalid(f)
      case Ok(inner) =>
        var withAs := (
          match TruthyValue(inner, "format")
          case Some(f) => Put(result, "as", Leaf(f))
          case None => result);
        var r := Put(withAs, "params", Nested(Remove(inner, "format")));
        NestedFacts(top, result, inner, withAs, r);
        PromotedAsNested(top, p, inner, result, r);
        Ok(r)
  }

  lemma PromotedAsFlat(top: Hash<Child>, result: Assoc<Value>)
    requires TruthyValue(top, "params").None?
    requires Lookup(result, "as") == (match TruthyValue(top, "format") case Some(f) => Some(Leaf(f)) case None => LeafOf(Lookup(top, "as")))
    ensures Lookup(result, "as") == PromotedAs(top)
  {
  }

  lemma PromotedAsNested(top: Hash<Child>, p: Child, inner: Hash<Child>, result: Assoc<Value>, r: Assoc<Value>)
    requires TruthyValue(top, "params") == Some(p) && ReadParams(p) == Ok(inner)
    requires Lookup(result, "as") == (match TruthyValue(top, "format") case Some(f) => Some(Leaf(f)) case None => LeafOf(Lookup(top, "as")))
    requires Lookup(r, "as") == (match TruthyValue(inner, "format") case Some(f) => Some(Leaf(f)) case None => Lookup(result, "as"))
    ensures Lookup(r, "as") == PromotedAs(top)
  {
  }

  lemma PromotedFacts(top: Hash<Child>, rest: Assoc<Child>, promoted: Assoc<Child>, result: Assoc<Value>)
    requires rest == Remove(top, "format")
    requires promoted == (match TruthyValue(top, "format") case Some(f) => Put(rest, "as", f) case None => rest)
    requires result == Lift(promoted)
    ensures NormalBesidesParams(result)
    ensures TruthyValue(top, "params").None? ==> Normalized(result)
    ensures TruthyValue(promoted, "params") == TruthyValue(top, "params")
    ensures forall k :: k != "format" && k != "as" ==> Lookup(result, k) == LeafOf(Lookup(top, k))
    ensures Lookup(result, "as") == (match TruthyValue(top, "format") case Some(f) => Some(Leaf(f)) case None => LeafOf(Lookup(top, "as")))
  {
    assert Lookup(promoted, "params") == Lookup(top, "params");
    assert Lookup(result, "params") == LeafOf(Lookup(top, "params"));
    forall k | k in Keys(result) && k != "params"
      ensures Get(result, k).Leaf?
    {
      assert Lookup(result, k) == LeafOf(Lookup(promoted, k));
    }
  }

  lemma NestedFacts(top: Hash<Child>, result: Assoc<Value>, inner: Hash<Child>, withAs: Assoc<Value>, r: Assoc<Value>)
    requires NormalBesidesParams(result)
    requires withAs == (match TruthyValue(inner, "format") case Some(f) => Put(result, "as", Leaf(f)) case None => result)
    requires r == Put(withAs, "params", Nested(Remove(inner, "format")))
    ensures Normalized(r)
    ensures forall k :: k != "as" && k != "params" ==> Lookup(r, k) == Lookup(result, k)
    ensures Lookup(r, "as") == (match TruthyValue(inner, "format") case Some(f) => Some(Leaf(f)) case None => Lookup(result, "as"))
    ensures Lookup(r, "params") == Some(Nested(Remove(inner, "format")))
  {
    NestedLookups(result, inner, withAs, r);
    NestedNormal(result, inner, r);
  }

  lemma NestedLookups(result: Assoc<Value>, inner: Hash<Child>, withAs: Assoc<Value>, r: Assoc<Value>)
    requires withAs == (match TruthyValue(inner, "format") case Some(f) => Put(result, "as", Leaf(f)) case None => result)
    requires r == Put(withAs, "params", Nested(Remove(inner, "format")))
    ensures Wf(result) ==> Wf(r)
    ensures forall k :: k != "as" && k != "params" ==> Lookup(r, k) == Lookup(result, k)
    ensures Lookup(r, "as") == (match TruthyValue(inner, "format") case Some(f) => Some(Leaf(f)) case None => Lookup(result, "as"))
    ensures Lookup(r, "params") == Some(Nested(Remove(inner, "format")))
  {
  }

  lemma NestedNormal(result: Assoc<Value>, inner: Hash<Child>, r: Assoc<Value>)
    requires NormalBesidesParams(result) && Wf(r)
    requires forall k :: k != "as" && k != "params" ==> Lookup(r, k) == Lookup(result, k)
    requires Lookup(r, "as").Some? ==> Lookup(r, "as").value.Leaf?
    requires Lookup(r, "params") == Some(Nested(Remove(inner, "format")))
    ensures Normalized(r)
  {
    assert Lookup(r, "format") == Lookup(result, "format");
    forall k | k in Keys(r) && k != "params"
      ensures Get(r, k).Leaf?
    {
      if k != "as" {
        assert Lookup(r, k) == Lookup(result, k);
      }
    }
  }

  // ---------------------------------------------------------------------
  // extract_and_validate_arguments
  // ---------------------------------------------------------------------

  /** `extract_and_validate_arguments`: the mapping of the call's keyword
      hash, normalised. */
  function Extract(call: Node): (r: Outcome<Assoc<Value>>)
    ensures |call.children| < 3 ==> r.Invalid?
    ensures |call.children| == 3 ==> r == NotApplicable
    ensures |call.children| > 3 && call.children[3].NilC? ==> r == NotApplicable
    ensures |call.children| > 3 && call.children[3].N? && call.children[3].node.kind != Hash ==> r == NotApplicable
    ensures |call.children| > 3 && call.children[3].N? && call.children[3].node.kind == Hash ==> r == ExtractHash(call.children[3].node)
    ensures |call.children| > 3 && (call.children[3].Sym? || call.children[3].Lit?) ==> r.Invalid?
    ensures r.Ok? ==> |call.children| > 3 && call.children[3].N? && call.children[3].node.kind == Hash
    ensures r.Ok? ==> Normalized(r.value)
  {
    if |call.children| < 3 then Invalid(NoMethod("[]"))   // the argument slice is nil
    else if |call.children| == 3 then NotApplicable
    else
      match call.children[3]
      case NilC => NotApplicable
      case N(hash) => if hash.kind == Hash then ExtractHash(hash) else NotApplicable
      case _ => Invalid(NoMethod("type"))
  }

  /** The skip check, the reading of the entries and their normalisation,
      once the argument is known to be a hash node. */
  function ExtractHash(hash: Node): (r: Outcome<Assoc<Value>>)
    ensures SkipCheck(hash).NotApplicable? ==> r == NotApplicable
    ensures SkipCheck(hash).Invalid? ==> r == Invalid(SkipCheck(hash).fault)
    ensures SkipCheck(hash) == Ok(()) && ReadEntries(hash.children, false).Invalid? ==>
      r == Invalid(ReadEntries(hash.children, false).fault)
    ensures SkipCheck(hash) == Ok(()) && ReadEntries(hash.children, false).Ok? ==>
      r == Normalize(FromPairs(ReadEntries(hash.children, false).value))
    ensures r.Ok? ==> SkipCheck(hash) == Ok(()) && ReadEntries(hash.children, false).Ok?
    ensures r.Ok? ==> Normalized(r.value)
  {
    match SkipCheck(hash)
    case NotApplicable => NotApplicable
    case Invalid(f) => Invalid(f)
    case Ok(_) =>
      match ReadEntries(hash.children, false)
      case NotApplicable => NotApplicable
      case Invalid(f) => Invalid(f)
      case Ok(ps) => Normalize(FromPairs(ps))
  }

  // ---------------------------------------------------------------------
  // add_xhr_node
  // ---------------------------------------------------------------------

  function PairNodes(ps: seq<(string, Child)>): (cs: seq<Child>)
    ensures |cs| == |ps|
    ensures forall i :: 0 <= i < |ps| ==> cs[i] == N(PairNode(ps[i].0, ps[i].1))
  {
    seq(|ps|, i requires 0 <= i < |ps| => N(PairNode(ps[i].0, ps[i].1)))
  }

  /** A nested hash rebuilt with its keys in ascending order. Nil values are
      kept: the nested nil test looks at the hash, not at the value. */
  function NestedHash(n: Hash<Child>): (h: Node)
    ensures h.kind == Hash
    ensures ReadEntries(h.children, true) == Ok(SortedView(n))
    ensures ReadEntries(h.children, false) == Ok(SortedView(n))
  {
    var view := SortedView(n);
    ReadPairNodes(view, true);
    ReadPairNodes(view, false);
    Node(Hash, PairNodes(view))
  }

  function RenderValue(v: Value): Child
  {
    match v
    case Leaf(c) => c
    case Nested(n) => N(NestedHash(n))
  }

  /** The value a key gets in the rebuilt hash; nil values are dropped. */
  function Rendered(o: Option<Value>): (r: Option<Child>)
    ensures r != Some(NilC)
  {
    match o
    case Some(v) => if v == Leaf(NilC) then None else Some(RenderValue(v))
    case None => None
  }

  /** The entries of the rebuilt hash, for entries listed in ascending
      order. */
  function RenderEntries(es: Assoc<Value>): (l: Assoc<Child>)
    ensures forall k :: k in Keys(l) ==> k in Keys(es)
    ensures Increasing(Keys(es)) ==> Increasing(Keys(l))
    ensures Wf(es) ==> forall k :: Lookup(l, k) == Rendered(Lookup(es, k))
  {
    if es == [] then []
    else
      var rest := RenderEntries(es[1..]);
      var l := if es[0].1 == Leaf(NilC) then rest else [(es[0].0, RenderValue(es[0].1))] + rest;
      RenderEntriesStep(es, rest, l);
      l
  }

  lemma RenderEntriesStep(es: Assoc<Value>, rest: Assoc<Child>, l: Assoc<Child>)
    requires |es| > 0
    requires forall k :: k in Keys(rest) ==> k in Keys(es[1..])
    requires Increasing(Keys(es[1..])) ==> Increasing(Keys(rest))
    requires Wf(es[1..]) ==> forall k :: Lookup(rest, k) == Rendered(Lookup(es[1..], k))
    requires l == if es[0].1 == Leaf(NilC) then rest else [(es[0].0, RenderValue(es[0].1))] + rest
    ensures forall k :: k in Keys(l) ==> k in Keys(es)
    ensures Increasing(Keys(es)) ==> Increasing(Keys(l))
    ensures Wf(es) ==> forall k :: Lookup(l, k) == Rendered(Lookup(es, k))
  {
    KeysCons(es);
    if l != rest {
      KeysCons(l);
      assert l[1..] == rest;
    }
    if Increasing(Keys(es)) {
      RenderEntriesIncreasing(es, rest, l);
    }
    if Wf(es) {
      RenderEntriesLookup(es, rest, l);
    }
  }

  lemma RenderEntriesIncreasing(es: Assoc<Value>, rest: Assoc<Child>, l: Assoc<Child>)
    requires |es| > 0 && Increasing(Keys(es))
    requires Keys(es) == [es[0].0] + Keys(es[1..])
    requires forall k :: k in Keys(rest) ==> k in Keys(es[1..])
    requires Increasing(Keys(es[1..])) ==> Increasing(Keys(rest))
    requires l == rest || Keys(l) == [es[0].0] + Keys(rest)
    ensures Increasing(Keys(l))
  {
    assert Keys(es[1..]) == Keys(es)[1..];
    assert Increasing(Keys(es[1..]));
    if l != rest {
      forall y | y in Keys(rest)
        ensures Below(es[0].0, y)
      {
        var j :| 0 <= j < |Keys(es[1..])| && Keys(es[1..])[j] == y;
        assert Keys(es)[j + 1] == y;
      }
      PrependIncreasing(es[0].0, Keys(rest));
    }
  }

  lemma RenderEntriesLookup(es: Assoc<Value>, rest: Assoc<Child>, l: Assoc<Child>)
    requires |es| > 0 && Wf(es)
    requires Keys(es) == [es[0].0] + Keys(es[1..])
    requires forall k :: k in Keys(rest) ==> k in Keys(es[1..])
    requires Wf(es[1..]) ==> forall k :: Lookup(rest, k) == Rendered(Lookup(es[1..], k))
    requires l == if es[0].1 == Leaf(NilC) then rest else [(es[0].0, RenderValue(es[0].1))] + rest
    ensures forall k :: Lookup(l, k) == Rendered(Lookup(es, k))
  {
    DistinctTail(Keys(es));
    assert Keys(es)[1..] == Keys(es[1..]);
    assert es[0].0 !in Keys(rest);
    if l != rest {
      assert l[1..] == rest;
    }
  }

  /** The entries of the rebuilt hash: keys ascending, nil values dropped,
      each other value rendered (a nested mapping as a sorted hash node). */
  function Layout(m: Hash<Value>): (l: Assoc<Child>)
    ensures Increasing(Keys(l))
    ensures forall k :: Lookup(l, k) == Rendered(Lookup(m, k))
  {
    var view := SortedView(m);
    IncreasingIsDistinct(Keys(view));
    RenderEntries(view)
  }

  /** `add_xhr_node`: the one hash node that replaces the call's arguments. */
  function BuildHash(m: Hash<Value>): (h: Node)
    ensures h.kind == Hash
    ensures ReadEntries(h.children, false) == Ok(Layout(m))
  {
    var l := Layout(m);
    ReadPairNodes(l, false);
    Node(Hash, PairNodes(l))
  }

  /** Reading back the pair nodes gives the pairs they were built from. */
  lemma ReadPairNodes(ps: seq<(string, Child)>, nested: bool)
    ensures ReadEntries(PairNodes(ps), nested) == Ok(ps)
  {
    var cs := PairNodes(ps);
    assert forall i :: 0 <= i < |cs| ==> IsEntry(cs[i]) && EntryPair(cs[i]) == ps[i];
    var r := ReadEntries(cs, nested);
    assert r.Ok? && r.value == ps;
  }

  // ---------------------------------------------------------------------
  // on_send
  // ---------------------------------------------------------------------

  /** `on_send` for one call node. */
  function OnSend(call: Node): (r: Action)
    ensures !IsVerbCall(call) ==> r == Keep
    ensures r.Replace? <==> IsVerbCall(call) && Extract(call).Ok?
    ensures r.Log? <==> IsVerbCall(call) && Extract(call).Invalid?
    ensures r.Replace? ==>
      && r.call.kind == call.kind
      && |r.call.children| == 4
      && r.call.children[0] == NilC
      && r.call.children[1] == call.children[1]
      && r.call.children[2] == call.children[2]
      && r.call.children[3].N?
      && r.call.children[3].node.kind == Hash
      && ReadEntries(r.call.children[3].node.children, false) == Ok(Layout(Extract(call).value))
  {
    if !IsVerbCall(call) then Keep
    else
      match Extract(call)
      case NotApplicable => Keep
      case Invalid(f) => Log(f)
      case Ok(m) => Replace(Rebuilt(call, m))
  }

  /** The call with a nil receiver, the same helper and path, and the one
      hash built from `m` as its only argument. */
  function Rebuilt(call: Node, m: Hash<Value>): (c: Node)
    requires |call.children| >= 3
    ensures c.kind == call.kind && |c.children| == 4
    ensures c.children[0] == NilC && c.children[1] == call.children[1] && c.children[2] == call.children[2]
    ensures c.children[3].N? && c.children[3].node.kind == Hash
    ensures ReadEntries(c.children[3].node.children, false) == Ok(Layout(m))
  {
    var h := BuildHash(m);
    Node(call.kind, [NilC, call.children[1], call.children[2], N(h)])
  }

  /** The call as it reads after the pass: rewritten, or left as written. */
  function Apply(call: Node): Node
  {
    match OnSend(call)
    case Replace(c) => c
    case _ => call
  }
}

=== FILE: hashes.dfy ===
/** A Ruby `Hash` keyed by symbol names: the entries in insertion order.
    Assigning to a key that is present replaces its value where it stands;
    assigning to a new key appends it; `delete` removes the key. */
module Hashes {
  import opened Order

  datatype Option<+T> = None | Some(value: T)

  type Assoc<V> = seq<(string, V)>

  function Keys<V>(a: Assoc<V>): (ks: seq<string>)
    ensures |ks| == |a|
    ensures forall i :: 0 <= i < |a| ==> ks[i] == a[i].0
  {
    seq(|a|, i requires 0 <= i < |a| => a[i].0)
  }

  lemma KeysCons<V>(a: Assoc<V>)
    requires |a| > 0
    ensures Keys(a) == [a[0].0] + Keys(a[1..])
  {
  }

  /** Every key occurs once, as in a Ruby Hash. */
  predicate Wf<V>(a: Assoc<V>)
  {
    Distinct(Keys(a))
  }

  lemma KeysIn<V>(a: Assoc<V>)
    ensures forall k :: k in Keys(a) <==> exists i :: 0 <= i < |a| && a[i].0 == k
  {
    forall k | k in Keys(a)
      ensures exists i :: 0 <= i < |a| && a[i].0 == k
    {
      var i :| 0 <= i < |Keys(a)| && Keys(a)[i] == k;
      assert a[i].0 == k;
    }
  }

  /** `h[k]`: the value of the first entry with key `k`. */
  function Lookup<V>(a: Assoc<V>, k: string): (r: Option<V>)
    ensures r.Some? <==> k in Keys(a)
  {
    if a == [] then None
    else if a[0].0 == k then Some(a[0].1)
    else
      assert Keys(a) == [a[0].0] + Keys(a[1..]);
      Lookup(a[1..], k)
  }

  /** In a well-formed hash every entry is what its key looks up. */
  lemma {:induction false} LookupEntry<V>(a: Assoc<V>, i: int)
    requires Wf(a) && 0 <= i < |a|
    ensures Lookup(a, a[i].0) == Some(a[i].1)
  {
    if i > 0 {
      assert Keys(a)[0] != Keys(a)[i];
      assert Wf(a[1..]) by {
        forall p, q | 0 <= p < q < |a[1..]|
          ensures Keys(a[1..])[p] != Keys(a[1..])[q]
        {
          assert Keys(a)[p + 1] != Keys(a)[q + 1];
        }
      }
      LookupEntry(a[1..], i - 1);
    }
  }

  function Get<V>(a: Assoc<V>, k: string): V
    requires k in Keys(a)
  {
    Lookup(a, k).value
  }

  /** `h[k] = v`. */
  function Put<V>(a: Assoc<V>, k: string, v: V): (r: Assoc<V>)
    ensures Lookup(r, k) == Some(v)
    ensures forall k' :: k' != k ==> Lookup(r, k') == Lookup(a, k')
    ensures k !in Keys(a) ==> r == a + [(k, v)]
    ensures k in Keys(a) ==> Keys(r) == Keys(a)
    ensures Wf(a) ==> Wf(r)
  {
    if a == [] then [(k, v)]
    else if a[0].0 == k then
      PutHere(a, k, v);
      [(k, v)] + a[1..]
    else
      var rest := Put(a[1..], k, v);
      PutLater(a, k, v, rest);
      [a[0]] + rest
  }

  /** What `Put(a, k, v)` promises of its result `r`. */
  ghost predicate PutSpec<V>(a: Assoc<V>, k: string, v: V, r: Assoc<V>)
  {
    && Lookup(r, k) == Some(v)
    && (forall k' :: k' != k ==> Lookup(r, k') == Lookup(a, k'))
    && (k !in Keys(a) ==> r == a + [(k, v)])
    && (k in Keys(a) ==> Keys(r) == Keys(a))
    && (Wf(a) ==> Wf(r))
  }

  lemma PutHere<V>(a: Assoc<V>, k: string, v: V)
    requires |a| > 0 && a[0].0 == k
    ensures PutSpec(a, k, v, [(k, v)] + a[1..])
  {
    var r := [(k, v)] + a[1..];
    assert r[1..] == a[1..];
    assert Keys(r) == Keys(a);
    assert k in Keys(a);
  }

  lemma PutLater<V>(a: Assoc<V>, k: string, v: V, rest: Assoc<V>)
    requires |a| > 0 && a[0].0 != k
    requires PutSpec(a[1..], k, v, rest)
    ensures PutSpec(a, k, v, [a[0]] + rest)
  {
    KeysCons(a);
    PutLaterLookup(a, k, v, rest);
    if k in Keys(a[1..]) {
      PutLaterKeys(a, k, rest);
    } else {
      PutLaterAppend(a, k, v, rest);
    }
  }

  lemma PutLaterLookup<V>(a: Assoc<V>, k: string, v: V, rest: Assoc<V>)
    requires |a| > 0 && a[0].0 != k
    requires Lookup(rest, k) == Some(v)
    requires forall k' :: k' != k ==> Lookup(rest, k') == Lookup(a[1..], k')
    ensures Lookup([a[0]] + rest, k) == Some(v)
    ensures forall k' :: k' != k ==> Lookup([a[0]] + rest, k') == Lookup(a, k')
  {
    assert ([a[0]] + rest)[1..] == rest;
  }

  /** A key new to `a` goes to the end. */
  lemma PutLaterAppend<V>(a: Assoc<V>, k: string, v: V, rest: Assoc<V>)
    requires |a| > 0 && rest == a[1..] + [(k, v)]
    requires k !in Keys(a)
    ensures [a[0]] + rest == a + [(k, v)]
    ensures Wf(a) ==> Wf(a + [(k, v)])
  {
    assert a == [a[0]] + a[1..];
    assert [a[0]] + (a[1..] + [(k, v)]) == ([a[0]] + a[1..]) + [(k, v)];
    KeysAppend(a, (k, v));
    if Wf(a) {
      DistinctSnoc(Keys(a), k);
    }
  }

  /** A key already in `a[1..]` keeps the keys as they are. */
  lemma PutLaterKeys<V>(a: Assoc<V>, k: string, rest: Assoc<V>)
    requires |a| > 0
    requires Keys(a) == [a[0].0] + Keys(a[1..])
    requires Keys(rest) == Keys(a[1..])
    ensures Keys([a[0]] + rest) == Keys(a)
  {
    KeysCons([a[0]] + rest);
    assert ([a[0]] + rest)[1..] == rest;
  }

  /** `h.delete(k)`, apart from its return value (which is `Lookup(a, k)`). */
  function Remove<V>(a: Assoc<V>, k: string): (r: Assoc<V>)
    ensures Lookup(r, k) == None
    ensures forall k' :: k' != k ==> Lookup(r, k') == Lookup(a, k')
    ensures forall x :: x in Keys(r) <==> x in Keys(a) && x != k
    ensures k !in Keys(a) ==> r == a
    ensures Wf(a) ==> Wf(r)
  {
    if a == [] then []
    else
      var rest := Remove(a[1..], k);
      if a[0].0 == k then
        RemoveHere(a, k, rest);
        rest
      else
        RemoveLater(a, k, rest);
        [a[0]] + rest
  }

  /** What `Remove(a, k)` promises of its result `r`. */
  ghost predicate RemoveSpec<V>(a: Assoc<V>, k: string, r: Assoc<V>)
  {
    && Lookup(r, k) == None
    && (forall k' :: k' != k ==> Lookup(r, k') == Lookup(a, k'))
    && (forall x :: x in Keys(r) <==> x in Keys(a) && x != k)
    && (k !in Keys(a) ==> r == a)
    && (Wf(a) ==> Wf(r))
  }

  lemma RemoveHere<V>(a: Assoc<V>, k: string, rest: Assoc<V>)
    requires |a| > 0 && a[0].0 == k
    requires RemoveSpec(a[1..], k, rest)
    ensures RemoveSpec(a, k, rest)
  {
    KeysCons(a);
    RemoveKeepsDistinct(a, rest);
  }

  lemma RemoveLater<V>(a: Assoc<V>, k: string, rest: Assoc<V>)
    requires |a| > 0 && a[0].0 != k
    requires RemoveSpec(a[1..], k, rest)
    ensures RemoveSpec(a, k, [a[0]] + rest)
  {
    KeysCons(a);
    RemoveLaterLookup(a, k, rest);
    RemoveLaterKeys(a, k, rest);
    RemoveKeepsDistinct(a, rest);
    RemoveLaterAbsent(a, k, rest);
  }

  lemma RemoveLaterAbsent<V>(a: Assoc<V>, k: string, rest: Assoc<V>)
    requires |a| > 0
    requires Keys(a) == [a[0].0] + Keys(a[1..])
    requires k !in Keys(a[1..]) ==> rest == a[1..]
    ensures k !in Keys(a) ==> [a[0]] + rest == a
  {
    if k !in Keys(a) {
      assert k !in Keys(a[1..]);
      HeadTail(a);
    }
  }

  lemma HeadTail<T>(s: seq<T>)
    requires |s| > 0
    ensures [s[0]] + s[1..] == s
  {
  }

  lemma RemoveLaterLookup<V>(a: Assoc<V>, k: string, rest: Assoc<V>)
    requires |a| > 0 && a[0].0 != k
    requires Lookup(rest, k) == None
    requires forall k' :: k' != k ==> Lookup(rest, k') == Lookup(a[1..], k')
    ensures Lookup([a[0]] + rest, k) == None
    ensures forall k' :: k' != k ==> Lookup([a[0]] + rest, k') == Lookup(a, k')
  {
    assert ([a[0]] + rest)[1..] == rest;
  }

  lemma RemoveLaterKeys<V>(a: Assoc<V>, k: string, rest: Assoc<V>)
    requires |a| > 0 && a[0].0 != k
    requires Keys(a) == [a[0].0] + Keys(a[1..])
    requires forall x :: x in Keys(rest) <==> x in Keys(a[1..]) && x != k
    ensures forall x :: x in Keys([a[0]] + rest) <==> x in Keys(a) && x != k
  {
    var r := [a[0]] + rest;
    KeysCons(r);
    assert r[1..] == rest;
    forall x
      ensures x in Keys(r) <==> x in Keys(a) && x != k
    {
      assert x in Keys(r) <==> x == a[0].0 || x in Keys(rest);
      assert x in Keys(a) <==> x == a[0].0 || x in Keys(a[1..]);
    }
  }

  lemma RemoveKeepsDistinct<V>(a: Assoc<V>, rest: Assoc<V>)
    requires |a| > 0
    requires Keys(a) == [a[0].0] + Keys(a[1..])
    requires forall x :: x in Keys(rest) ==> x in Keys(a[1..])
    requires Wf(a[1..]) ==> Wf(rest)
    ensures Wf(a) ==> Wf(rest) && Wf([a[0]] + rest)
  {
    if Wf(a) {
      assert Wf(a[1..]) by {
        forall p, q | 0 <= p < q < |a[1..]|
          ensures Keys(a[1..])[p] != Keys(a[1..])[q]
        {
          assert Keys(a)[p + 1] != Keys(a)[q + 1];
        }
      }
      assert a[0].0 !in Keys(a[1..]) by {
        forall p | 0 <= p < |Keys(a[1..])|
          ensures Keys(a[1..])[p] != a[0].0
        {
          assert Keys(a)[0] != Keys(a)[p + 1];
        }
      }
      var ks := Keys([a[0]] + rest);
      assert ks == [a[0].0] + Keys(rest);
      forall p, q | 0 <= p < q < |ks|
        ensures ks[p] != ks[q]
      {
        if p == 0 {
          assert ks[q] == Keys(rest)[q - 1];
          assert Keys(rest)[q - 1] in Keys(rest);
        } else {
          assert ks[p] == Keys(rest)[p - 1] && ks[q] == Keys(rest)[q - 1];
        }
      }
    }
  }

  /** The hash built by assigning the pairs one after another, a later pair
      overwriting an earlier one with the same key. */
  function FromPairs<V>(ps: seq<(string, V)>): (r: Assoc<V>)
    ensures Wf(r)
    ensures forall k :: k in Keys(r) <==> k in Keys(ps)
  {
    if ps == [] then []
    else
      var init := ps[..|ps| - 1];
      var last := ps[|ps| - 1];
      var r := Put(FromPairs(init), last.0, last.1);
      FromPairsStep(ps, FromPairs(init), r);
      r
  }

  lemma FromPairsStep<V>(ps: seq<(string, V)>, prev: Assoc<V>, r: Assoc<V>)
    requires |ps| > 0
    requires Wf(prev) && forall k :: k in Keys(prev) <==> k in Keys(ps[..|ps| - 1])
    requires PutSpec(prev, ps[|ps| - 1].0, ps[|ps| - 1].1, r)
    ensures Wf(r)
    ensures forall k :: k in Keys(r) <==> k in Keys(ps)
  {
    var init := ps[..|ps| - 1];
    var last := ps[|ps| - 1];
    assert ps == init + [last];
    KeysAppend(init, last);
    if last.0 !in Keys(prev) {
      KeysAppend(prev, last);
    }
  }

  lemma {:induction false} KeysAppend<V>(a: Assoc<V>, e: (string, V))
    ensures Keys(a + [e]) == Keys(a) + [e.0]
  {
  }

  /** Last write wins: a key maps to the value of its last pair. */
  lemma {:induction false} FromPairsLastWins<V>(ps: seq<(string, V)>, i: int)
    requires 0 <= i < |ps|
    requires forall j :: i < j < |ps| ==> ps[j].0 != ps[i].0
    ensures Lookup(FromPairs(ps), ps[i].0) == Some(ps[i].1)
    decreases |ps|
  {
    if i < |ps| - 1 {
      var init := ps[..|ps| - 1];
      assert init[i] == ps[i];
      FromPairsLastWins(init, i);
    }
  }

  /** Every pair not overwritten later is what its key looks up. */
  lemma LastWinsEverywhere<V>(ps: seq<(string, V)>)
    ensures forall i :: 0 <= i < |ps| && (forall j :: i < j < |ps| ==> ps[j].0 != ps[i].0) ==>
              Lookup(FromPairs(ps), ps[i].0) == Some(ps[i].1)
  {
    forall i | 0 <= i < |ps| && forall j :: i < j < |ps| ==> ps[j].0 != ps[i].0
      ensures Lookup(FromPairs(ps), ps[i].0) == Some(ps[i].1)
    {
      FromPairsLastWins(ps, i);
    }
  }

  /** Pairs with distinct keys are kept as they are, in their order. */
  lemma {:induction false} FromPairsDistinct<V>(ps: seq<(string, V)>)
    requires Wf(ps)
    ensures FromPairs(ps) == ps
    decreases |ps|
  {
    if ps != [] {
      var init := ps[..|ps| - 1];
      var last := ps[|ps| - 1];
      assert ps == init + [last];
      KeysAppend(init, last);
      assert Keys(ps) == Keys(init) + [last.0];
      assert Wf(init) by {
        forall p, q | 0 <= p < q < |init|
          ensures Keys(init)[p] != Keys(init)[q]
        {
          assert Keys(ps)[p] != Keys(ps)[q];
        }
      }
      assert last.0 !in Keys(init) by {
        forall p | 0 <= p < |Keys(init)|
          ensures Keys(init)[p] != last.0
        {
          assert Keys(ps)[p] != Keys(ps)[|ps| - 1];
        }
      }
      FromPairsDistinct(init);
    }
  }

  /** The entries of a hash listed in ascending key order, as
      a loop over the sorted keys visits them. */
  function SortedView<V>(a: Assoc<V>): (r: Assoc<V>)
    requires Wf(a)
    ensures Increasing(Keys(r))
    ensures forall k :: Lookup(r, k) == Lookup(a, k)
  {
    var ks := Sort(Keys(a));
    SortMembers(Keys(a));
    var r := Entries(a, ks);
    SortedViewLookup(a, ks, r);
    r
  }

  /** The entries `(k, h[k])` for the keys `ks`, in that order. */
  function Entries<V>(a: Assoc<V>, ks: seq<string>): (r: Assoc<V>)
    requires forall k :: k in ks ==> k in Keys(a)
    ensures Keys(r) == ks
    ensures forall i :: 0 <= i < |r| ==> Lookup(a, r[i].0) == Some(r[i].1)
  {
    if ks == [] then []
    else
      var rest := Entries(a, ks[1..]);
      assert ks == [ks[0]] + ks[1..];
      KeysCons([(ks[0], Get(a, ks[0]))] + rest);
      assert ([(ks[0], Get(a, ks[0]))] + rest)[1..] == rest;
      [(ks[0], Get(a, ks[0]))] + rest
  }

  lemma SortedViewLookup<V>(a: Assoc<V>, ks: seq<string>, r: Assoc<V>)
    requires Wf(a) && Increasing(ks)
    requires forall k :: k in ks <==> k in Keys(a)
    requires Keys(r) == ks
    requires forall i :: 0 <= i < |r| ==> Lookup(a, r[i].0) == Some(r[i].1)
    ensures forall k :: Lookup(r, k) == Lookup(a, k)
  {
    IncreasingIsDistinct(ks);
    forall k
      ensures Lookup(r, k) == Lookup(a, k)
    {
      if k in Keys(r) {
        var i :| 0 <= i < |ks| && ks[i] == k;
        LookupEntry(r, i);
      }
    }
  }

  /** Two hashes with ascending keys that look up alike are the same list. */
  lemma IncreasingLookupUnique<V>(a: Assoc<V>, b: Assoc<V>)
    requires Increasing(Keys(a)) && Increasing(Keys(b))
    requires forall k :: Lookup(a, k) == Lookup(b, k)
    ensures a == b
  {
    forall x
      ensures x in Keys(a) <==> x in Keys(b)
    {
      assert Lookup(a, x).Some? == Lookup(b, x).Some?;
    }
    IncreasingUnique(Keys(a), Keys(b));
    IncreasingIsDistinct(Keys(a));
    IncreasingIsDistinct(Keys(b));
    forall i | 0 <= i < |a|
      ensures a[i] == b[i]
    {
      LookupEntry(a, i);
      LookupEntry(b, i);
      assert Keys(a)[i] == Keys(b)[i];
    }
  }

  /** Listing a hash in key order twice is the same as doing it once. */
  lemma SortedViewIdempotent<V>(a: Assoc<V>)
    requires Wf(a)
    ensures Wf(SortedView(a)) && SortedView(SortedView(a)) == SortedView(a)
  {
    var v := SortedView(a);
    IncreasingIsDistinct(Keys(v));
    IncreasingLookupUnique(SortedView(v), v);
  }
}

=== FILE: order.dfy ===
/** The order in which Ruby's `Array#sort` lists the symbol keys of a keyword
    hash: symbols compare by their names, character by character, and a proper
    prefix sorts first. Comparing code points agrees with Ruby's byte-wise
    comparison of UTF-8 names. */
module Order {

  /** Strict lexicographic order on names. */
  predicate Below(a: string, b: string)
    decreases |a|
  {
    if |a| == 0 then |b| > 0
    else if |b| == 0 then false
    else if a[0] != b[0] then a[0] < b[0]
    else Below(a[1..], b[1..])
  }

  lemma {:induction false} BelowIrreflexive(a: string)
    ensures !Below(a, a)
    decreases |a|
  {
    if |a| > 0 {
      BelowIrreflexive(a[1..]);
    }
  }

  lemma {:induction false} BelowTransitive(a: string, b: string, c: string)
    requires Below(a, b) && Below(b, c)
    ensures Below(a, c)
    decreases |a|
  {
    if |a| > 0 && a[0] == b[0] && b[0] == c[0] {
      BelowTransitive(a[1..], b[1..], c[1..]);
    }
  }

  lemma {:induction false} BelowTotal(a: string, b: string)
    requires a != b
    ensures Below(a, b) || Below(b, a)
    decreases |a|
  {
    if |a| > 0 && |b| > 0 && a[0] == b[0] {
      assert a == [a[0]] + a[1..] && b == [b[0]] + b[1..];
      BelowTotal(a[1..], b[1..]);
    }
  }

  lemma BelowAsymmetric(a: string, b: string)
    requires Below(a, b)
    ensures !Below(b, a)
  {
    if Below(b, a) {
      BelowTransitive(a, b, a);
      BelowIrreflexive(a);
    }
  }

  predicate Distinct(s: seq<string>)
  {
    forall i, j :: 0 <= i < j < |s| ==> s[i] != s[j]
  }

  lemma DistinctTail(s: seq<string>)
    requires Distinct(s) && |s| > 0
    ensures Distinct(s[1..]) && s[0] !in s[1..]
  {
    assert forall j :: 0 <= j < |s[1..]| ==> s[1..][j] == s[j + 1];
  }

  lemma DistinctSnoc(s: seq<string>, x: string)
    requires Distinct(s) && x !in s
    ensures Distinct(s + [x])
  {
    assert forall j :: 0 <= j < |s| ==> (s + [x])[j] == s[j];
  }

  /** Strictly ascending: sorted and free of duplicates. */
  predicate Increasing(s: seq<string>)
  {
    forall i, j :: 0 <= i < j < |s| ==> Below(s[i], s[j])
  }

  lemma IncreasingIsDistinct(s: seq<string>)
    requires Increasing(s)
    ensures Distinct(s)
  {
    forall i, j | 0 <= i < j < |s|
      ensures s[i] != s[j]
    {
      BelowIrreflexive(s[i]);
    }
  }

  /** A name that is below every element of an ascending sequence can head it. */
  lemma PrependIncreasing(x: string, s: seq<string>)
    requires Increasing(s)
    requires forall y :: y in s ==> Below(x, y)
    ensures Increasing([x] + s)
  {
    var r := [x] + s;
    forall i, j | 0 <= i < j < |r|
      ensures Below(r[i], r[j])
    {
      if i == 0 {
        assert r[j] == s[j - 1];
      } else {
        assert r[i] == s[i - 1] && r[j] == s[j - 1];
      }
    }
  }

  /** Inserts `x` at its place in an ascending sequence. */
  function Insert(x: string, s: seq<string>): (r: seq<string>)
    requires Increasing(s) && x !in s
    ensures Increasing(r)
    ensures multiset(r) == multiset(s) + multiset{x}
  {
    if s == [] then [x]
    else if Below(x, s[0]) then
      InsertFirst(x, s);
      [x] + s
    else
      BelowTotal(x, s[0]);
      var rest := Insert(x, s[1..]);
      InsertLater(x, s, rest);
      [s[0]] + rest
  }

  lemma InsertFirst(x: string, s: seq<string>)
    requires Increasing(s) && |s| > 0 && Below(x, s[0])
    ensures Increasing([x] + s)
  {
    forall y | y in s
      ensures Below(x, y)
    {
      var j :| 0 <= j < |s| && s[j] == y;
      if j > 0 {
        BelowTransitive(x, s[0], y);
      }
    }
    PrependIncreasing(x, s);
  }

  lemma InsertLater(x: string, s: seq<string>, rest: seq<string>)
    requires Increasing(s) && |s| > 0 && Below(s[0], x)
    requires Increasing(rest)
    requires multiset(rest) == multiset(s[1..]) + multiset{x}
    ensures Increasing([s[0]] + rest)
    ensures multiset([s[0]] + rest) == multiset(s) + multiset{x}
  {
    forall y | y in rest
      ensures Below(s[0], y)
    {
      assert y in multiset(rest);
      if y != x {
        assert y in multiset(s[1..]);
        assert y in s[1..];
        var j :| 0 <= j < |s[1..]| && s[1..][j] == y;
        assert s[j + 1] == y;
      }
    }
    PrependIncreasing(s[0], rest);
    assert s == [s[0]] + s[1..];
  }

  /** Insertion sort: Ruby's `keys.sort` for a hash's (distinct) keys. */
  function Sort(s: seq<string>): (r: seq<string>)
    requires Distinct(s)
    ensures Increasing(r)
    ensures multiset(r) == multiset(s)
  {
    if s == [] then []
    else
      assert Distinct(s[1..]) by {
        forall i, j | 0 <= i < j < |s[1..]|
          ensures s[1..][i] != s[1..][j]
        {
          assert s[1..][i] == s[i + 1] && s[1..][j] == s[j + 1];
        }
      }
      var tail := Sort(s[1..]);
      assert s[0] !in tail by {
        assert forall j :: 0 <= j < |s[1..]| ==> s[1..][j] == s[j + 1];
        assert s[0] !in s[1..];
        assert s[0] !in multiset(s[1..]);
      }
      assert s == [s[0]] + s[1..];
      Insert(s[0], tail)
  }

  lemma SortMembers(s: seq<string>)
    requires Distinct(s)
    ensures forall x :: x in Sort(s) <==> x in s
  {
    forall x
      ensures x in Sort(s) <==> x in s
    {
      assert x in Sort(s) <==> x in multiset(Sort(s));
      assert x in s <==> x in multiset(s);
    }
  }

  /** Two ascending sequences with the same elements are equal: the sorted
      order of a set of names does not depend on where the names came from. */
  lemma {:induction false} IncreasingUnique(a: seq<string>, b: seq<string>)
    requires Increasing(a) && Increasing(b)
    requires forall x :: x in a <==> x in b
    ensures a == b
    decreases |a|
  {
    if a != [] {
      assert a[0] in b;
    }
    if b != [] {
      assert b[0] in a;
    }
    if a != [] && b != [] {
      if a[0] != b[0] {
        assert b[0] in a;
        var i :| 0 <= i < |a| && a[i] == b[0];
        assert a[0] in b;
        var j :| 0 <= j < |b| && b[j] == a[0];
        assert Below(a[0], b[0]);
        assert Below(b[0], a[0]);
        BelowAsymmetric(a[0], b[0]);
      }
      forall x
        ensures x in a[1..] <==> x in b[1..]
      {
        if x in a[1..] {
          var i :| 0 <= i < |a[1..]| && a[1..][i] == x;
          assert a[i + 1] == x && Below(a[0], x);
          BelowIrreflexive(x);
          assert x in b;
          assert b == [b[0]] + b[1..];
        }
        if x in b[1..] {
          var i :| 0 <= i < |b[1..]| && b[1..][i] == x;
          assert b[i + 1] == x && Below(b[0], x);
          BelowIrreflexive(x);
          assert x in a;
          assert a == [a[0]] + a[1..];
        }
      }
      assert Increasing(a[1..]) by {
        forall i, j | 0 <= i < j < |a[1..]|
          ensures Below(a[1..][i], a[1..][j])
        {
          assert a[1..][i] == a[i + 1] && a[1..][j] == a[j + 1];
        }
      }
      assert Increasing(b[1..]) by {
        forall i, j | 0 <= i < j < |b[1..]|
          ensures Below(b[1..][i], b[1..][j])
        {
          assert b[1..][i] == b[i + 1] && b[1..][j] == b[j + 1];
        }
      }
      IncreasingUnique(a[1..], b[1..]);
      assert a == [a[0]] + a[1..] && b == [b[0]] + b[1..];
    }
  }

  /** Sorting an already ascending sequence leaves it as it is. */
  lemma SortFixesIncreasing(s: seq<string>)
    requires Increasing(s)
    ensures Distinct(s)
    ensures Sort(s) == s
  {
    IncreasingIsDistinct(s);
    SortMembers(s);
    IncreasingUnique(Sort(s), s);
  }
}

=== FILE: properties.dfy ===
/** Properties of the rewrite that relate several calls or several steps. */
module Properties {
  import opened Order
  import opened Hashes
  import opened Ast
  import opened FormatToAs

  /** A call whose keyword hash starts with an `as:` entry (or an entry whose
      value starts with `:as`) is left as written. */
  lemma LeadingAsIsKept(call: Node)
    requires |call.children| > 3 && call.children[3].N?
    requires call.children[3].node.kind == Hash
    requires FirstEntryInspectable(call.children[3].node)
    requires FirstEntryMentionsAs(call.children[3].node)
    ensures Extract(call) == NotApplicable
    ensures Apply(call) == call
  {
  }

  /** An entry of the keyword hash that does not have exactly two children
      (a `**opts`, say) makes the call raise; the call is logged and kept.
      When it is the first such entry, it is the one reported. */
  lemma MalformedEntryIsLogged(call: Node, i: int)
    requires IsVerbCall(call)
    requires |call.children| > 3 && call.children[3].N?
    requires call.children[3].node.kind == Hash
    requires SkipCheck(call.children[3].node) == Ok(())
    requires 0 <= i < |call.children[3].node.children|
    requires call.children[3].node.children[i].N?
    requires |call.children[3].node.children[i].node.children| != 2
    ensures OnSend(call).Log?
    ensures Apply(call) == call
    ensures (forall j :: 0 <= j < i ==> IsEntry(call.children[3].node.children[j])) ==>
              OnSend(call) == Log(Unexpected(call.children[3].node.children[i].node))
  {
    var entries := call.children[3].node.children;
    assert !IsEntry(entries[i]);
    if forall j :: 0 <= j < i ==> IsEntry(entries[j]) {
      FirstFailureDecides(entries, false, i);
    }
  }

  /** A `params` value with a child that is not a node (the `@ivar` in
      `params: @ivar`, say) makes the call not applicable, unless an earlier
      child already failed. */
  lemma ParamsAtomIsSkipped(top: Hash<Child>, p: Node, i: int)
    requires TruthyValue(top, "params") == Some(N(p))
    requires 0 <= i < |p.children| && !p.children[i].N?
    requires forall j :: 0 <= j < i ==> IsEntry(p.children[j])
    ensures Normalize(top) == NotApplicable
  {
    FirstFailureDecides(p.children, true, i);
  }

  /** A `params` child that is a node with other than two children makes
      normalisation raise with that node, unless an earlier child already
      failed. */
  lemma MalformedParamsEntryRaises(top: Hash<Child>, p: Node, i: int)
    requires TruthyValue(top, "params") == Some(N(p))
    requires 0 <= i < |p.children| && p.children[i].N? && |p.children[i].node.children| != 2
    requires forall j :: 0 <= j < i ==> IsEntry(p.children[j])
    ensures Normalize(top) == Invalid(Unexpected(p.children[i].node))
  {
    FirstFailureDecides(p.children, true, i);
  }

  /** Rendering a leaf that is not nil gives the leaf back. */
  lemma RenderedLeaf(o: Option<Child>)
    requires o != Some(NilC)
    ensures Rendered(LeafOf(o)) == o
  {
  }

  /** The params hash rendered from a normalised mapping reads back as the
      same (sorted) mapping. */
  lemma NestedRoundTrip(n: Hash<Child>)
    requires "format" !in Keys(n)
    ensures ReadParams(N(NestedHash(n))) == Ok(SortedView(n))
    ensures Remove(SortedView(n), "format") == SortedView(n)
    ensures TruthyValue(SortedView(n), "format").None?
    ensures NestedHash(SortedView(n)) == NestedHash(n)
  {
    var v := SortedView(n);
    SortedViewIdempotent(n);
    FromPairsDistinct(v);
    assert Lookup(v, "format") == Lookup(n, "format");
  }

  /** Normalising the layout of a normalised mapping changes nothing that
      the layout shows. */
  lemma RenormalizeLayout(m: Hash<Value>)
    requires Normalized(m)
    ensures Wf(Layout(m))
    ensures Normalize(Layout(m)).Ok?
    ensures forall k :: Rendered(Lookup(Normalize(Layout(m)).value, k)) == Lookup(Layout(m), k)
  {
    var l := Layout(m);
    IncreasingIsDistinct(Keys(l));
    LayoutParams(m, l);
    assert Lookup(m, "format").None?;
    RenormalizeKeeps(l);
  }

  /** Without `format` anywhere, normalisation changes only how `params` is
      held, so every rendered value is the one the mapping started with. */
  lemma RenormalizeKeeps(l: Hash<Child>)
    requires Lookup(l, "format").None? && ParamsFormat(l).None?
    requires forall k :: Lookup(l, k) != Some(NilC)
    requires Normalize(l).Ok?
    requires Rendered(Lookup(Normalize(l).value, "params")) == Lookup(l, "params")
    ensures forall k :: Rendered(Lookup(Normalize(l).value, k)) == Lookup(l, k)
  {
    var m2 := Normalize(l).value;
    assert TruthyValue(l, "format").None?;
    assert Lookup(m2, "as") == LeafOf(Lookup(l, "as"));
    assert Lookup(m2, "format").None? by {
      assert "format" !in Keys(m2);
    }
    RenderedOthers(l, m2);
  }

  /** The `params` entry of a layout survives normalisation. */
  lemma LayoutParams(m: Hash<Value>, l: Hash<Child>)
    requires Normalized(m) && l == Layout(m)
    ensures ParamsFormat(l).None?
    ensures Normalize(l).Ok?
    ensures Rendered(Lookup(Normalize(l).value, "params")) == Lookup(l, "params")
  {
    var pm := Lookup(m, "params");
    if pm.Some? && pm.value.Nested? {
      var n := pm.value.entries;
      assert NormalEntry("params", Get(m, "params"));
      NestedRoundTrip(n);
      assert TruthyValue(l, "params") == Some(N(NestedHash(n)));
      NestedParamsSurvive(l, n);
    } else {
      assert pm.Some? ==> NormalEntry("params", Get(m, "params"));
      assert Lookup(l, "params").None?;
      assert TruthyValue(l, "params").None?;
      var r := Normalize(l);
      assert r.Ok? && Lookup(r.value, "params").None?;
    }
  }

  lemma NestedParamsSurvive(l: Hash<Child>, n: Hash<Child>)
    requires "format" !in Keys(n)
    requires TruthyValue(l, "params") == Some(N(NestedHash(n)))
    ensures ParamsFormat(l).None?
    ensures Normalize(l).Ok?
    ensures Rendered(Lookup(Normalize(l).value, "params")) == Some(N(NestedHash(n)))
  {
    NestedRoundTrip(n);
    var v := SortedView(n);
    assert ReadParams(N(NestedHash(n))) == Ok(v);
    var r := Normalize(l);
    assert r.Ok? && Lookup(r.value, "params") == Some(Nested(Remove(v, "format")));
    assert Remove(v, "format") == v;
    assert Rendered(Some(Nested(v))) == Some(N(NestedHash(v)));
  }

  lemma RenderedOthers(l: Hash<Child>, m2: Assoc<Value>)
    requires forall k :: Lookup(l, k) != Some(NilC)
    requires Lookup(l, "format").None? && Lookup(m2, "format").None?
    requires Lookup(m2, "as") == LeafOf(Lookup(l, "as"))
    requires forall k :: k != "format" && k != "as" && k != "params" ==> Lookup(m2, k) == LeafOf(Lookup(l, k))
    requires Rendered(Lookup(m2, "params")) == Lookup(l, "params")
    ensures forall k :: Rendered(Lookup(m2, k)) == Lookup(l, k)
  {
    forall k
      ensures Rendered(Lookup(m2, k)) == Lookup(l, k)
    {
      RenderedLeaf(Lookup(l, k));
      if k != "format" && k != "as" && k != "params" {
        assert Lookup(m2, k) == LeafOf(Lookup(l, k));
      }
    }
  }

  /** Running the rewrite over a call it has just rebuilt leaves that call
      as it is: rewriting is idempotent. */
  lemma RewriteIsIdempotent(call: Node)
    ensures Apply(Apply(call)) == Apply(call)
  {
    match OnSend(call)
    case Replace(r) =>
      RebuiltCallIsFixed(call, Extract(call).value, r);
    case Keep =>
    case Log(_) =>
  }

  lemma RebuiltCallIsFixed(call: Node, m: Hash<Value>, r: Node)
    requires IsVerbCall(call) && |call.children| >= 3
    requires Normalized(m)
    requires r == Node(call.kind, [NilC, call.children[1], call.children[2], N(BuildHash(m))])
    ensures Apply(r) == r
  {
    if SkipCheck(BuildHash(m)) == Ok(()) {
      RebuildsItself(call, m, r);
    } else {
      SkippedWhenRebuilt(call, m, r);
    }
  }

  /** A rebuilt call whose hash passes the skip check is rebuilt as it
      stands. */
  lemma RebuildsItself(call: Node, m: Hash<Value>, r: Node)
    requires IsVerbCall(call) && |call.children| >= 3
    requires Normalized(m) && SkipCheck(BuildHash(m)) == Ok(())
    requires r == Node(call.kind, [NilC, call.children[1], call.children[2], N(BuildHash(m))])
    ensures Apply(r) == r
  {
    RebuiltHashIsFixed(m);
    RebuildsFrom(call, BuildHash(m), r, ExtractHash(BuildHash(m)).value);
  }

  lemma RebuildsFrom(call: Node, h: Node, r: Node, m2: Hash<Value>)
    requires IsVerbCall(call) && |call.children| >= 3
    requires h.kind == Hash && ExtractHash(h) == Ok(m2) && BuildHash(m2) == h
    requires r == Node(call.kind, [NilC, call.children[1], call.children[2], N(h)])
    ensures Apply(r) == r
  {
    ExtractsFrom(r, h, m2);
    ReplacedBy(r, m2);
    assert [NilC, r.children[1], r.children[2], N(h)] == r.children;
  }

  /** A call whose one argument is the hash `h` extracts as `h` does. */
  lemma ExtractsFrom(r: Node, h: Node, m2: Hash<Value>)
    requires |r.children| == 4 && r.children[3] == N(h)
    requires h.kind == Hash && ExtractHash(h) == Ok(m2)
    ensures Extract(r) == Ok(m2)
  {
  }

  /** A rebuilt call whose hash fails the skip check is left alone. */
  lemma SkippedWhenRebuilt(call: Node, m: Hash<Value>, r: Node)
    requires IsVerbCall(call) && |call.children| >= 3
    requires SkipCheck(BuildHash(m)) != Ok(())
    requires r == Node(call.kind, [NilC, call.children[1], call.children[2], N(BuildHash(m))])
    ensures Apply(r) == r
  {
    assert Extract(r) == ExtractHash(BuildHash(m));
  }

  /** A verb call whose hash extracts to `m` is replaced by the call rebuilt
      around `BuildHash(m)`. */
  lemma ReplacedBy(call: Node, m: Hash<Value>)
    requires IsVerbCall(call) && |call.children| >= 3
    requires Extract(call) == Ok(m)
    ensures Apply(call) == Node(call.kind, [NilC, call.children[1], call.children[2], N(BuildHash(m))])
  {
  }

  /** A rebuilt hash that passes the skip check extracts to a mapping that
      builds the same hash again. */
  lemma RebuiltHashIsFixed(m: Hash<Value>)
    requires Normalized(m)
    requires SkipCheck(BuildHash(m)) == Ok(())
    ensures ExtractHash(BuildHash(m)).Ok?
    ensures BuildHash(ExtractHash(BuildHash(m)).value) == BuildHash(m)
  {
    var h := BuildHash(m);
    var l := Layout(m);
    RenormalizeLayout(m);
    IncreasingIsDistinct(Keys(l));
    FromPairsDistinct(l);
    assert ExtractHash(h) == Normalize(l);
    var m2 := Normalize(l).value;
    assert Layout(m2) == l by {
      IncreasingLookupUnique(Layout(m2), l);
    }
  }

  /** The rebuilt hash depends only on what the mapping looks up, not on the
      order its entries came in. */
  lemma BuildIgnoresEntryOrder(m1: Hash<Value>, m2: Hash<Value>)
    requires forall k :: Lookup(m1, k) == Lookup(m2, k)
    ensures BuildHash(m1) == BuildHash(m2)
  {
    IncreasingLookupUnique(Layout(m1), Layout(m2));
  }

  /** Once past the skip check, normalisation and the rebuilt hash depend
      only on what the assigned top-level mapping looks up. The skip check
      itself reads the first entry only, so it does depend on the order. */
  lemma RewriteIgnoresEntryOrder(t1: Hash<Child>, t2: Hash<Child>)
    requires forall k :: Lookup(t1, k) == Lookup(t2, k)
    ensures Normalize(t1).Ok? <==> Normalize(t2).Ok?
    ensures Normalize(t1).Ok? ==> BuildHash(Normalize(t1).value) == BuildHash(Normalize(t2).value)
  {
    NormalizeOkAgrees(t1, t2);
    if Normalize(t1).Ok? {
      var a := Normalize(t1).value;
      var b := Normalize(t2).value;
      forall k
        ensures Lookup(a, k) == Lookup(b, k)
      {
        NormalizeLookupAgrees(t1, t2, k);
      }
      BuildIgnoresEntryOrder(a, b);
    }
  }

  lemma NormalizeOkAgrees(t1: Hash<Child>, t2: Hash<Child>)
    requires forall k :: Lookup(t1, k) == Lookup(t2, k)
    ensures Normalize(t1).Ok? <==> Normalize(t2).Ok?
  {
    assert TruthyValue(t1, "params") == TruthyValue(t2, "params");
  }

  lemma NormalizeLookupAgrees(t1: Hash<Child>, t2: Hash<Child>, k: string)
    requires forall k :: Lookup(t1, k) == Lookup(t2, k)
    requires Normalize(t1).Ok? && Normalize(t2).Ok?
    ensures Lookup(Normalize(t1).value, k) == Lookup(Normalize(t2).value, k)
  {
    var a := Normalize(t1).value;
    var b := Normalize(t2).value;
    if k == "format" {
      assert "format" !in Keys(a) && "format" !in Keys(b);
    } else if k == "as" {
      assert TruthyValue(t1, "params") == TruthyValue(t2, "params");
      assert TruthyValue(t1, "format") == TruthyValue(t2, "format");
      assert ParamsFormat(t1) == ParamsFormat(t2);
      assert PromotedAs(t1) == PromotedAs(t2);
    } else if k == "params" {
      assert TruthyValue(t1, "params") == TruthyValue(t2, "params");
    } else {
      assert Lookup(a, k) == LeafOf(Lookup(t1, k));
    }
  }
}

=== FILE: scenarios.dfy ===
/** The rewrite on concrete calls: the examples of the test suite
    (test/test_format_to_as.rb), stated for any values in those positions,
    and the cases the rewrite declines. */
module Scenarios {
  import opened Order
  import opened Hashes
  import opened Ast
  import opened FormatToAs
  import opened Properties

  /** `verb :path, <entries>` as the parser reads it: no receiver, the helper
      name, the path symbol node, and one keyword hash. */
  function Call(verb: string, path: string, entries: seq<Child>): Node
  {
    Node(Send, [NilC, Sym(verb), N(SymNode(path)), N(Node(Hash, entries))])
  }

  /** `key: value` */
  function Entry(key: string, value: Child): Child
  {
    N(PairNode(key, value))
  }

  /** `:name` */
  function SymValue(name: string): Child
  {
    N(SymNode(name))
  }

  /** `{ key: value, ... }` */
  function HashOf(entries: seq<Child>): Child
  {
    N(Node(Hash, entries))
  }

  /** A value the skip check looks through: a node that does not start with `:as`. */
  predicate Plain(c: Child)
  {
    c.N? && !StartsWithAs(c)
  }

  // ---------------------------------------------------------------------
  // Building blocks
  // ---------------------------------------------------------------------

  lemma PairNodesOne(k: string, v: Child)
    ensures PairNodes([(k, v)]) == [Entry(k, v)]
  {
  }

  lemma PairNodesTwo(k1: string, v1: Child, k2: string, v2: Child)
    ensures PairNodes([(k1, v1), (k2, v2)]) == [Entry(k1, v1), Entry(k2, v2)]
  {
  }

  /** The skip check lets a hash through whose first key is not `as` and
      whose first value is a node that does not start with `:as`. */
  lemma FirstPairPasses(ps: seq<(string, Child)>)
    requires |ps| > 0 && ps[0].0 != "as" && Plain(ps[0].1)
    ensures SkipCheck(Node(Hash, PairNodes(ps))) == Ok(())
  {
    var entry := PairNodes(ps)[0].node;
    assert entry.children == [N(SymNode(ps[0].0)), ps[0].1];
    assert !StartsWithAs(entry.children[0]);
  }

  lemma ExtractPairs(verb: string, path: string, ps: seq<(string, Child)>)
    requires Wf(ps)
    requires SkipCheck(Node(Hash, PairNodes(ps))) == Ok(())
    ensures Extract(Call(verb, path, PairNodes(ps))) == Normalize(ps)
  {
    ReadPairNodes(ps, false);
    FromPairsDistinct(ps);
  }

  /** A call whose keyword hash is built from distinct pairs, whose first
      entry passes the skip check and whose normalised mapping renders as
      `l` is rewritten to the call with exactly the pairs of `l`. */
  lemma RewritesTo(verb: string, path: string, ps: seq<(string, Child)>, m: Assoc<Value>, l: Assoc<Child>)
    requires verb in Verbs && Wf(ps)
    requires SkipCheck(Node(Hash, PairNodes(ps))) == Ok(())
    requires Normalize(ps) == Ok(m)
    requires Increasing(Keys(l))
    requires forall k :: Rendered(Lookup(m, k)) == Lookup(l, k)
    ensures Apply(Call(verb, path, PairNodes(ps))) == Call(verb, path, PairNodes(l))
  {
    ExtractPairs(verb, path, ps);
    RebuiltAs(verb, path, PairNodes(ps), m, l);
  }

  lemma RebuiltAs(verb: string, path: string, entries: seq<Child>, m: Hash<Value>, l: Assoc<Child>)
    requires verb in Verbs
    requires Extract(Call(verb, path, entries)) == Ok(m)
    requires Increasing(Keys(l))
    requires forall k :: Rendered(Lookup(m, k)) == Lookup(l, k)
    ensures Apply(Call(verb, path, entries)) == Call(verb, path, PairNodes(l))
  {
    BuildsLayout(m, l);
    ReplacedBy(Call(verb, path, entries), m);
  }

  /** Any ascending mapping that renders the lookups of `m` is the one the
      rebuilt hash lists. */
  lemma BuildsLayout(m: Hash<Value>, l: Assoc<Child>)
    requires Increasing(Keys(l))
    requires forall k :: Rendered(Lookup(m, k)) == Lookup(l, k)
    ensures BuildHash(m) == Node(Hash, PairNodes(l))
  {
    IncreasingLookupUnique(Layout(m), l);
  }

  /** A hash of one pair is already in ascending order. */
  lemma SingleSorted(k: string, v: Child)
    ensures Wf([(k, v)])
    ensures SortedView([(k, v)]) == [(k, v)]
    ensures NestedHash([(k, v)]) == Node(Hash, [Entry(k, v)])
  {
    IncreasingLookupUnique(SortedView([(k, v)]), [(k, v)]);
    PairNodesOne(k, v);
  }

  /** The rendered lookups of a mapping that holds only `as` and a nested
      `params`. */
  lemma AsParamsLayout(m: Assoc<Value>, a: Child, nv: Child, n: Hash<Child>)
    requires Lookup(m, "as") == Some(Leaf(a)) && a != NilC
    requires Lookup(m, "params") == Some(Nested(n)) && RenderValue(Nested(n)) == nv
    requires forall k :: k != "as" && k != "params" ==> Lookup(m, k).None?
    ensures forall k :: Rendered(Lookup(m, k)) == Lookup([("as", a), ("params", nv)], k)
  {
    forall k
      ensures Rendered(Lookup(m, k)) == Lookup([("as", a), ("params", nv)], k)
    {
      if k != "as" && k != "params" {
        assert Lookup([("as", a), ("params", nv)], k).None?;
      }
    }
  }

  /** A call whose normalised mapping holds only `as: a` and a one-entry
      `params` is rebuilt as `as: a, params: { k: v }`. */
  lemma RewritesToAsAndParams(verb: string, path: string, ps: Hash<Child>, m: Assoc<Value>, a: Child, n: Hash<Child>, k: string, v: Child)
    requires verb in Verbs && |ps| > 0 && ps[0].0 == "params" && Plain(ps[0].1)
    requires a != NilC && n == [(k, v)]
    requires Normalize(ps) == Ok(m)
    requires Lookup(m, "as") == Some(Leaf(a))
    requires Lookup(m, "params") == Some(Nested(n))
    requires forall k :: k != "as" && k != "params" ==> Lookup(m, k).None?
    ensures Apply(Call(verb, path, PairNodes(ps)))
         == Call(verb, path, [Entry("as", a), Entry("params", HashOf([Entry(k, v)]))])
  {
    var l := [("as", a), ("params", HashOf([Entry(k, v)]))];
    AsParamsSorted(a, HashOf([Entry(k, v)]));
    FirstPairPasses(ps);
    SingleSorted(k, v);
    AsParamsLayout(m, a, HashOf([Entry(k, v)]), n);
    RewritesTo(verb, path, ps, m, l);
    PairNodesTwo("as", a, "params", HashOf([Entry(k, v)]));
  }

  lemma AsParamsSorted(a: Child, p: Child)
    ensures Increasing(Keys([("as", a), ("params", p)]))
  {
    assert Keys([("as", a), ("params", p)]) == ["as", "params"];
    assert Below("as", "params");
  }

  // ---------------------------------------------------------------------
  // Normalisation of the example hashes
  // ---------------------------------------------------------------------

  /** `{ k: v, format: f }` inside `params`. */
  lemma InnerWithFormat(k: string, v: Child, f: Child)
    requires k != "format" && Truthy(f)
    ensures Wf([(k, v), ("format", f)])
    ensures ReadParams(HashOf([Entry(k, v), Entry("format", f)])) == Ok([(k, v), ("format", f)])
    ensures TruthyValue([(k, v), ("format", f)], "format") == Some(f)
    ensures Remove([(k, v), ("format", f)], "format") == [(k, v)]
  {
    var inner := [(k, v), ("format", f)];
    assert Keys(inner) == [k, "format"];
    assert inner[1..] == [("format", f)];
    ReadsAsWritten(inner, [Entry(k, v), Entry("format", f)]);
  }

  /** A `params` hash of pair nodes with distinct keys reads as its pairs. */
  lemma ReadsAsWritten(ps: Assoc<Child>, entries: seq<Child>)
    requires Wf(ps) && entries == PairNodes(ps)
    ensures ReadParams(HashOf(entries)) == Ok(ps)
  {
    ReadPairNodes(ps, true);
    FromPairsDistinct(ps);
  }

  /** `{ k: v }` inside `params`. */
  lemma InnerWithoutFormat(k: string, v: Child)
    requires k != "format"
    ensures Wf([(k, v)])
    ensures ReadParams(HashOf([Entry(k, v)])) == Ok([(k, v)])
    ensures TruthyValue([(k, v)], "format").None?
    ensures Remove([(k, v)], "format") == [(k, v)]
  {
    PairNodesOne(k, v);
    ReadPairNodes([(k, v)], true);
    FromPairsDistinct([(k, v)]);
  }

  /** A keyword hash holding only `params:` (readable as `inner`). */
  lemma OnlyParams(pv: Child, inner: Hash<Child>)
    requires Truthy(pv) && ReadParams(pv) == Ok(inner)
    ensures Wf([("params", pv)])
    ensures Normalize([("params", pv)]).Ok?
    ensures Lookup(Normalize([("params", pv)]).value, "as") == LeafOf(TruthyValue(inner, "format"))
    ensures Lookup(Normalize([("params", pv)]).value, "params") == Some(Nested(Remove(inner, "format")))
    ensures forall k :: k != "as" && k != "params" ==> Lookup(Normalize([("params", pv)]).value, k).None?
  {
    var ps := [("params", pv)];
    assert Wf(ps);
    assert TruthyValue(ps, "params") == Some(pv);
    assert TruthyValue(ps, "format").None?;
    assert Lookup(ps, "as").None?;
    forall k | k != "as" && k != "params"
      ensures Lookup(Normalize(ps).value, k).None?
    {
      if k != "format" {
        assert Lookup(ps, k).None?;
      }
    }
  }

  /** A keyword hash holding `params:` (readable as `inner`) and then a
      truthy `format:`. */
  lemma ParamsThenFormat(pv: Child, inner: Hash<Child>, f: Child)
    requires Truthy(pv) && ReadParams(pv) == Ok(inner) && Truthy(f)
    ensures Wf([("params", pv), ("format", f)])
    ensures Normalize([("params", pv), ("format", f)]).Ok?
    ensures Lookup(Normalize([("params", pv), ("format", f)]).value, "as")
         == Some(Leaf(if TruthyValue(inner, "format").Some? then TruthyValue(inner, "format").value else f))
    ensures Lookup(Normalize([("params", pv), ("format", f)]).value, "params") == Some(Nested(Remove(inner, "format")))
    ensures forall k :: k != "as" && k != "params" ==> Lookup(Normalize([("params", pv), ("format", f)]).value, k).None?
  {
    var ps := [("params", pv), ("format", f)];
    ParamsAndFormat(pv, f, ps);
    forall k | k != "as" && k != "params"
      ensures Lookup(Normalize(ps).value, k).None?
    {
    }
  }

  /** The two entries `params:` and `format:`, read as a hash. */
  lemma ParamsAndFormat(pv: Child, f: Child, ps: Assoc<Child>)
    requires Truthy(pv) && Truthy(f) && ps == [("params", pv), ("format", f)]
    ensures Wf(ps) && TruthyValue(ps, "params") == Some(pv) && TruthyValue(ps, "format") == Some(f)
    ensures forall k :: k != "params" && k != "format" ==> Lookup(ps, k).None?
  {
    assert Keys(ps) == ["params", "format"];
    assert ps[1..] == [("format", f)];
    assert Lookup(ps, "format") == Some(f);
  }

  // ---------------------------------------------------------------------
  // The examples of the test suite, for any values in their positions
  // ---------------------------------------------------------------------

  /** `get :images_path, format: :x` becomes `get :images_path, as: :x`. */
  lemma FormatBecomesAs(verb: string, path: string, f: Child)
    requires verb in Verbs && Plain(f)
    ensures Apply(Call(verb, path, [Entry("format", f)])) == Call(verb, path, [Entry("as", f)])
  {
    var ps := [("format", f)];
    var l := [("as", f)];
    PairNodesOne("format", f);
    PairNodesOne("as", f);
    assert Wf(ps);
    assert TruthyValue(ps, "format") == Some(f);
    assert Lookup(Normalize(ps).value, "as") == Some(Leaf(f));
    forall k
      ensures Rendered(Lookup(Normalize(ps).value, k)) == Lookup(l, k)
    {
      if k != "as" && k != "format" && k != "params" {
        assert Lookup(ps, k).None?;
      }
    }
    FirstPairPasses(ps);
    RewritesTo(verb, path, ps, Normalize(ps).value, l);
  }

  /** `post :image_path, params: { id: 1, format: :x }` becomes
      `post :image_path, as: :x, params: { id: 1 }`. */
  lemma ParamsFormatBecomesAs(verb: string, path: string, k: string, v: Child, f: Child)
    requires verb in Verbs && k != "format" && Truthy(f)
    ensures Apply(Call(verb, path, [Entry("params", HashOf([Entry(k, v), Entry("format", f)]))]))
         == Call(verb, path, [Entry("as", f), Entry("params", HashOf([Entry(k, v)]))])
  {
    var pv := HashOf([Entry(k, v), Entry("format", f)]);
    var inner := [(k, v), ("format", f)];
    InnerWithFormat(k, v, f);
    OnlyParams(pv, inner);
    PairNodesOne("params", pv);
    RewritesToAsAndParams(verb, path, [("params", pv)], Normalize([("params", pv)]).value, f, Remove(inner, "format"), k, v);
  }

  /** `post :image_path, params: { id: 1 }, format: :flat` becomes
      `post :image_path, as: :flat, params: { id: 1 }`. */
  lemma TopFormatBesideParams(verb: string, path: string, k: string, v: Child, f: Child)
    requires verb in Verbs && k != "format" && Truthy(f)
    ensures Apply(Call(verb, path, [Entry("params", HashOf([Entry(k, v)])), Entry("format", f)]))
         == Call(verb, path, [Entry("as", f), Entry("params", HashOf([Entry(k, v)]))])
  {
    var pv := HashOf([Entry(k, v)]);
    InnerWithoutFormat(k, v);
    ParamsThenFormat(pv, [(k, v)], f);
    PairNodesTwo("params", pv, "format", f);
    RewritesToAsAndParams(verb, path, [("params", pv), ("format", f)], Normalize([("params", pv), ("format", f)]).value, f, Remove([(k, v)], "format"), k, v);
  }

  /** `post :image_path, as: :json` already uses `as:` and is left as written. */
  lemma ExistingAsIsKept(verb: string, path: string, a: Child)
    requires a.N?
    ensures Apply(Call(verb, path, [Entry("as", a)])) == Call(verb, path, [Entry("as", a)])
  {
    var call := Call(verb, path, [Entry("as", a)]);
    assert StartsWithAs(call.children[3].node.children[0].node.children[0]);
    LeadingAsIsKept(call);
  }

  /** The four examples with the values the test suite writes. */
  lemma TestSuiteExamples()
    ensures Apply(Call("get", "images_path", [Entry("format", SymValue("x"))]))
         == Call("get", "images_path", [Entry("as", SymValue("x"))])
    ensures Apply(Call("post", "image_path", [Entry("as", SymValue("json"))]))
         == Call("post", "image_path", [Entry("as", SymValue("json"))])
    ensures
      var one := N(Node(Other("int"), [Lit("1")]));
      Apply(Call("post", "image_path", [Entry("params", HashOf([Entry("id", one), Entry("format", SymValue("x"))]))]))
        == Call("post", "image_path", [Entry("as", SymValue("x")), Entry("params", HashOf([Entry("id", one)]))])
    ensures
      var one := N(Node(Other("int"), [Lit("1")]));
      Apply(Call("post", "image_path", [Entry("params", HashOf([Entry("id", one)])), Entry("format", SymValue("flat"))]))
        == Call("post", "image_path", [Entry("as", SymValue("flat")), Entry("params", HashOf([Entry("id", one)]))])
  {
    var one := N(Node(Other("int"), [Lit("1")]));
    FormatBecomesAs("get", "images_path", SymValue("x"));
    ExistingAsIsKept("post", "image_path", SymValue("json"));
    ParamsFormatBecomesAs("post", "image_path", "id", one, SymValue("x"));
    TopFormatBesideParams("post", "image_path", "id", one, SymValue("flat"));
  }

  // ---------------------------------------------------------------------
  // Calls the rewrite declines, and calls it only re-sorts
  // ---------------------------------------------------------------------

  /** `visit :images_path, format: :x` is not a request helper: kept. */
  lemma OtherHelperIsKept()
    ensures OnSend(Call("visit", "images_path", [Entry("format", SymValue("x"))])) == Keep
  {
    assert "visit" !in Verbs;
    assert !IsVerbCall(Call("visit", "images_path", [Entry("format", SymValue("x"))]));
  }

  /** `post :image_path, **opts` cannot be read: the double splat has one
      child, the call is logged and left as written. */
  lemma DoubleSplatIsLogged()
    ensures
      var splat := Node(Other("kwsplat"), [N(Node(Other("send"), [NilC, Sym("opts")]))]);
      && OnSend(Call("post", "image_path", [N(splat)])) == Log(Unexpected(splat))
      && Apply(Call("post", "image_path", [N(splat)])) == Call("post", "image_path", [N(splat)])
  {
    var splat := Node(Other("kwsplat"), [N(Node(Other("send"), [NilC, Sym("opts")]))]);
    var call := Call("post", "image_path", [N(splat)]);
    assert !StartsWithAs(splat.children[0]);
    assert SkipCheck(call.children[3].node) == Ok(());
    MalformedEntryIsLogged(call, 0);
  }

  /** The skip check looks at the first entry only, so the order of the
      entries matters: `as: a, format: f` is left as written, while
      `format: f, as: a` becomes `as: f`. */
  lemma SkipCheckSeesFirstEntryOnly(verb: string, path: string, a: Child, f: Child)
    requires verb in Verbs && a.N? && Plain(f)
    ensures Apply(Call(verb, path, [Entry("as", a), Entry("format", f)]))
         == Call(verb, path, [Entry("as", a), Entry("format", f)])
    ensures Apply(Call(verb, path, [Entry("format", f), Entry("as", a)])) == Call(verb, path, [Entry("as", f)])
  {
    var kept := Call(verb, path, [Entry("as", a), Entry("format", f)]);
    assert StartsWithAs(kept.children[3].node.children[0].node.children[0]);
    LeadingAsIsKept(kept);
    LaterAsIsOverwritten(verb, path, a, f);
  }

  lemma LaterAsIsOverwritten(verb: string, path: string, a: Child, f: Child)
    requires verb in Verbs && a.N? && Plain(f)
    ensures Apply(Call(verb, path, [Entry("format", f), Entry("as", a)])) == Call(verb, path, [Entry("as", f)])
  {
    var ps := [("format", f), ("as", a)];
    var l := [("as", f)];
    PairNodesTwo("format", f, "as", a);
    PairNodesOne("as", f);
    FormatThenAs(f, a, ps);
    forall k
      ensures Rendered(Lookup(Normalize(ps).value, k)) == Lookup(l, k)
    {
    }
    FirstPairPasses(ps);
    RewritesTo(verb, path, ps, Normalize(ps).value, l);
  }

  /** The two entries `format:` and `as:`, normalised. */
  lemma FormatThenAs(f: Child, a: Child, ps: Assoc<Child>)
    requires Plain(f) && ps == [("format", f), ("as", a)]
    ensures Wf(ps) && Normalize(ps).Ok?
    ensures Lookup(Normalize(ps).value, "as") == Some(Leaf(f))
    ensures forall k :: k != "as" ==> Lookup(Normalize(ps).value, k).None?
  {
    assert Keys(ps) == ["format", "as"];
    assert TruthyValue(ps, "format") == Some(f);
    assert ps[1..] == [("as", a)];
    assert Lookup(ps, "params").None?;
    forall k | k != "as"
      ensures Lookup(Normalize(ps).value, k).None?
    {
      if k != "format" && k != "params" {
        assert Lookup(ps, k).None?;
      }
    }
  }

  /** `get :images_path, params: @filters, format: :x` has a `params` value
      whose child is an atom (the ivar's name): the call is not touched. */
  lemma InstanceVariableParamsAreSkipped(verb: string, path: string, name: string, f: Child)
    requires name != "as"
    ensures
      var call := Call(verb, path, [Entry("params", N(Node(Other("ivar"), [Sym(name)]))), Entry("format", f)]);
      Apply(call) == call
  {
    var ivar := Node(Other("ivar"), [Sym(name)]);
    var ps := [("params", N(ivar)), ("format", f)];
    PairNodesTwo("params", N(ivar), "format", f);
    IvarParams(ivar, f);
    FirstPairPasses(ps);
    ExtractPairs(verb, path, ps);
  }

  lemma IvarParams(ivar: Node, f: Child)
    requires |ivar.children| > 0 && !ivar.children[0].N?
    ensures Wf([("params", N(ivar)), ("format", f)])
    ensures Normalize([("params", N(ivar)), ("format", f)]) == NotApplicable
  {
    var ps := [("params", N(ivar)), ("format", f)];
    assert Keys(ps) == ["params", "format"];
    assert TruthyValue(ps, "params") == Some(N(ivar));
    ParamsAtomIsSkipped(ps, ivar, 0);
  }

  /** Every value found by a lookup is one of the listed values. */
  lemma {:induction false} LookupListed<V>(a: Assoc<V>, k: string)
    requires Lookup(a, k).Some?
    ensures exists i :: 0 <= i < |a| && a[i] == (k, Lookup(a, k).value)
  {
    if a[0].0 != k {
      LookupListed(a[1..], k);
      var i :| 0 <= i < |a[1..]| && a[1..][i] == (k, Lookup(a[1..], k).value);
      assert a[i + 1] == a[1..][i];
    } else {
      assert a[0] == (k, Lookup(a, k).value);
    }
  }

  /** A call whose keyword hash has neither `format` nor `params` (and no
      nil value) is only rebuilt with its keys in ascending order. */
  lemma PlainCallIsSorted(verb: string, path: string, ps: Hash<Child>)
    requires verb in Verbs
    requires SkipCheck(Node(Hash, PairNodes(ps))) == Ok(())
    requires "format" !in Keys(ps) && "params" !in Keys(ps)
    requires forall i :: 0 <= i < |ps| ==> ps[i].1 != NilC
    ensures Apply(Call(verb, path, PairNodes(ps))) == Call(verb, path, PairNodes(SortedView(ps)))
  {
    var m := Normalize(ps).value;
    forall k
      ensures Rendered(Lookup(m, k)) == Lookup(SortedView(ps), k)
    {
      if Lookup(ps, k).Some? {
        LookupListed(ps, k);
      }
      assert Lookup(m, k) == LeafOf(Lookup(ps, k));
      RenderedLeaf(Lookup(ps, k));
    }
    RewritesTo(verb, path, ps, m, SortedView(ps));
  }

  /** Two pairs with different keys look up the same in either order. */
  lemma SwappedLookups<V>(k1: string, v1: V, k2: string, v2: V)
    requires k1 != k2
    ensures forall k :: Lookup([(k1, v1), (k2, v2)], k) == Lookup([(k2, v2), (k1, v1)], k)
  {
    forall k
      ensures Lookup([(k1, v1), (k2, v2)], k) == Lookup([(k2, v2), (k1, v1)], k)
    {
      assert [(k1, v1), (k2, v2)][1..] == [(k2, v2)];
      assert [(k2, v2), (k1, v1)][1..] == [(k1, v1)];
    }
  }

  /** `get :images_path, sort: 'new', limit: 10` has nothing to convert but
      is still rebuilt, with its keys in ascending order. */
  lemma KeysAreSorted(verb: string, path: string, s: Child, l: Child)
    requires verb in Verbs && Plain(s) && l != NilC
    ensures Apply(Call(verb, path, [Entry("sort", s), Entry("limit", l)]))
         == Call(verb, path, [Entry("limit", l), Entry("sort", s)])
  {
    PairNodesTwo("sort", s, "limit", l);
    PairNodesTwo("limit", l, "sort", s);
    SortLimit(s, l);
    SortLimitPlain(s, l);
    PlainCallIsSorted(verb, path, [("sort", s), ("limit", l)]);
  }

  lemma SortLimit(s: Child, l: Child)
    requires Plain(s) && l != NilC
    ensures Wf([("sort", s), ("limit", l)])
    ensures SortedView([("sort", s), ("limit", l)]) == [("limit", l), ("sort", s)]
  {
    assert Below("limit", "sort");
    SortedTwo("sort", s, "limit", l);
  }

  lemma SortLimitPlain(s: Child, l: Child)
    requires Plain(s) && l != NilC
    ensures SkipCheck(Node(Hash, PairNodes([("sort", s), ("limit", l)]))) == Ok(())
    ensures "format" !in Keys([("sort", s), ("limit", l)]) && "params" !in Keys([("sort", s), ("limit", l)])
    ensures forall i :: 0 <= i < 2 ==> [("sort", s), ("limit", l)][i].1 != NilC
  {
    assert Keys([("sort", s), ("limit", l)]) == ["sort", "limit"];
    FirstPairPasses([("sort", s), ("limit", l)]);
  }

  /** Two pairs listed in descending order are swapped by sorting. */
  lemma SortedTwo<V>(k1: string, v1: V, k2: string, v2: V)
    requires Below(k2, k1)
    ensures Wf([(k1, v1), (k2, v2)])
    ensures Keys([(k1, v1), (k2, v2)]) == [k1, k2]
    ensures SortedView([(k1, v1), (k2, v2)]) == [(k2, v2), (k1, v1)]
  {
    TwoKeys(k1, v1, k2, v2);
    SwappedLookups(k1, v1, k2, v2);
    IncreasingLookupUnique(SortedView([(k1, v1), (k2, v2)]), [(k2, v2), (k1, v1)]);
  }

  lemma TwoKeys<V>(k1: string, v1: V, k2: string, v2: V)
    requires Below(k2, k1)
    ensures k1 != k2
    ensures Keys([(k1, v1), (k2, v2)]) == [k1, k2] && Wf([(k1, v1), (k2, v2)])
    ensures Keys([(k2, v2), (k1, v1)]) == [k2, k1] && Increasing([k2, k1])
  {
    BelowIrreflexive(k1);
  }
}
